=== FILE: README.md ===
# PFC pause tests: the decision logic

This project models the deterministic rules inside two priority-flow-control
(PFC) tests of the SONiC management test suite, and the helper library one of
them drives a traffic generator with:

- `tests/ixia/lib/ixia_helpers.py`. It looks up the generator port a DUT
  interface is cabled to (`Card<d>/Port<d>`). It names and configures
  virtual ports. It checks traffic-item parameters, chooses the
  transmission-control mode and the start delay, and computes the MAC-control
  fields of PFC frames (IEEE 802.1Qbb, opcode 0x0101) and global PAUSE frames
  (IEEE 802.3x, opcode 0x0001). It also reads fields out of captured packets.
- `tests/ixia/test_pfc_pause_lossless.py`. It classifies flow-statistics rows
  by their traffic-item name and judges their tx/rx counters. It pairs ports
  round a ring and derives the background priorities. It plans the
  experiments and builds the three streams of each.
- `tests/qos/test_pfc_pause.py`. It pairs PTF interfaces round a ring and
  chooses the pause generator. It parses the PTF report `Passes: a / b` and
  folds the per-interface results. It dispatches on the topology, splits DSCP
  values into lossless and lossy sets, and flags interfaces whose pass ratio
  is below 75%.

The vendor SDK, Ansible and the clock are replaced by plain values:
- a traffic item is the record of the values the builder writes into it;
- what the environment decides (MAC-table check, PTF output, flow counters)
  is an input.

Python's failure modes are modelled with `Option` or with a rejection reason:
- `int()` raising `ValueError`;
- `list.remove` of a missing value;
- a builder printing a message and returning `None`.

Modules:

| file | module | models |
|---|---|---|
| Options.dfy | `Options` | `Option` |
| Decimal.dfy | `Decimal` | `str(int)` and `int(str)` |
| Text.dfy | `Text` | substring `in`, greedy `\d+`, `str.split()`, `str.strip()`, `int(text)` |
| Bits.dfy | `Bits` | `1 << p`, bits of a mask |
| Ring.dfy | `Ring` | the `(i + 1) % n` pairing |
| IxiaNeighbors.dfy | `IxiaNeighbors` | neighbour lookups |
| IxiaPorts.dfy | `IxiaPorts` | `config_ports` |
| CapturedPackets.dfy | `CapturedPackets` | `get_captured_data_pkts`, `get_pkt_field` |
| PauseFields.dfy | `PauseFields` | `set_pfc_fields`, `set_global_pause_fields` |
| TrafficItems.dfy | `TrafficItems` | the three traffic-item builders |
| PfcPauseLossless.dfy | `PfcPauseLossless` | the traffic-generator PFC test |
| QosPfcPause.dfy | `QosPfcPause` | the fanout-switch PFC test |

## Model

| member | source | states |
|---|---|---|
| IxiaNeighbors.NeighMgmtIp | tests/ixia/lib/ixia_helpers.py:14-23 | An address is returned exactly when the interface is in the connectivity graph and its peer device is a known chassis; it is that chassis's address. |
| IxiaNeighbors.ParseCardPortCorrect | tests/ixia/lib/ixia_helpers.py:37-38 | The parser yields `(card, port)` exactly when the text starts with `Card` + digits + `/Port` + digits, where each group is a maximal digit run and trailing text is allowed. |
| IxiaNeighbors.ParseCardPortSound | tests/ixia/lib/ixia_helpers.py:37-38 | Whatever the parser returns has the `Card<d+>/Port<d+>` form at the start of the text. |
| IxiaNeighbors.ParseCardPortComplete | tests/ixia/lib/ixia_helpers.py:37-38 | Every text of that form parses to its two digit groups. |
| IxiaNeighbors.ParseCardPortRoundTrip | tests/ixia/lib/ixia_helpers.py:37-43 | Writing `Card<c>/Port<p>` followed by text not starting with a digit and parsing it gives back `c` and `p`. |
| IxiaNeighbors.NeighCard | tests/ixia/lib/ixia_helpers.py:31-43 | A missing interface gives None; otherwise the card is the first digit group when the peer port has the pattern, and None when it does not. |
| IxiaNeighbors.NeighPort | tests/ixia/lib/ixia_helpers.py:51-63 | A missing interface gives None; otherwise the port is the second digit group when the peer port has the pattern, and None when it does not. |
| IxiaNeighbors.NeighCardPortAgree | tests/ixia/lib/ixia_helpers.py:31-63 | Card and port follow one rule: either both are found or neither is. |
| IxiaNeighbors.NeighLookupsAgree | tests/ixia/lib/ixia_helpers.py:14-63 | Where the management address is found, the card is found exactly when the peer port has the `Card<d>/Port<d>` form. Where the card is found, the address is found exactly when the peer device is a known chassis. |
| IxiaPorts.ConfigPorts | tests/ixia/lib/ixia_helpers.py:84-109 | One virtual port per list entry, in order, named `Port_1`..`Port_n`. Each keeps its chassis location and gets the layer-1 type `novusHundredGigLanFcoe`, all eight priority groups, no IEEE defaults, no auto-negotiation, and its own entry's speed setting. |
| IxiaPorts.ConfigPortsNamesDistinct | tests/ixia/lib/ixia_helpers.py:88-91 | No two configured ports share a name. |
| IxiaPorts.PortNameInjective | tests/ixia/lib/ixia_helpers.py:90 | Different indices give different port names. |
| IxiaPorts.Gbps | tests/ixia/lib/ixia_helpers.py:106 | Python 2 `speed/1000` is floor division: the result `g` satisfies `1000*g <= speed < 1000*(g+1)`. |
| IxiaPorts.SpeedSettingRoundTrip | tests/ixia/lib/ixia_helpers.py:106 | `speed<g>g` reads back as `speed / 1000`, which never exceeds the speed for a non-negative speed. |
| CapturedPackets.GetPktField | tests/ixia/lib/ixia_helpers.py:612-620 | A value is returned exactly when the header exists and has the field, and it is the stored one. |
| CapturedPackets.GetPktFieldAfterStore | tests/ixia/lib/ixia_helpers.py:598 | Storing one field into a header's map makes exactly that (header, field) pair read the new value. Other fields of the same header and other headers read as before. |
| CapturedPackets.DecodeFields | tests/ixia/lib/ixia_helpers.py:597-598 | A header's field map holds exactly the names of its fields. |
| CapturedPackets.DecodeFieldsLast | tests/ixia/lib/ixia_helpers.py:597-598 | A field name reads as the value of the last field with that name. |
| CapturedPackets.DecodePacket | tests/ixia/lib/ixia_helpers.py:592-598 | A decoded packet holds exactly the names of its headers. |
| CapturedPackets.DecodePacketLast | tests/ixia/lib/ixia_helpers.py:592-598 | A header name reads as the field map of the last header with that name. The fresh map stored at line 594 discards the fields of earlier headers with the same name. |
| CapturedPackets.DecodeCapture | tests/ixia/lib/ixia_helpers.py:579-602 | There is one decoded packet per captured packet, in capture order. |
| CapturedPackets.ReadDecodedField | tests/ixia/lib/ixia_helpers.py:592-620 | Reading a field of a decoded packet gives the value of the last field with that name in the last header with that name. |
| CapturedPackets.ReadShadowedField | tests/ixia/lib/ixia_helpers.py:592-620 | A field that appears only in an earlier header of the same name reads as absent. |
| PauseFields.EnableVectorBits | tests/ixia/lib/ixia_helpers.py:445-448 | For distinct priorities in 0..7, the summed `1 << p` has bit `i` set exactly when `i` is listed, and is below 256. |
| PauseFields.EnableVectorIsMask | tests/ixia/lib/ixia_helpers.py:445-448 | For distinct priorities in range, the sum of `1 << p` equals the bit mask of the set of priorities. |
| PauseFields.RepeatedPriorityCarries | tests/ixia/lib/ixia_helpers.py:446-447 | A repeated priority is added twice and carries: `[3, 3]` enables priority 4, not 3. |
| PauseFields.PfcFields | tests/ixia/lib/ixia_helpers.py:438-457 | A PFC frame has opcode 0x0101 and the summed `1 << p` as its vector. It has eight per-class fields: 0xFFFF on each listed class and 0 on every other class. |
| PauseFields.PfcFieldsConsistent | tests/ixia/lib/ixia_helpers.py:443-457 | Class `i` is enabled in the vector exactly when its pause time is 0xFFFF, and disabled exactly when its pause time is 0. |
| PauseFields.PfcFieldsForThreeAndFour | tests/ixia/lib/ixia_helpers.py:438-457 | Pausing priorities 3 and 4 writes opcode 0x0101, vector 0x18, and pause times 0xFFFF on classes 3 and 4 only. |
| PauseFields.GlobalPauseValues | tests/ixia/lib/ixia_helpers.py:391-405 | Global PAUSE writes opcode 1, 0xFFFF in the vector field, and 0 in every class field. |
| TrafficItems.TransmissionControl | tests/ixia/lib/ixia_helpers.py:263-278 | Count and duration together are refused. A count alone gives a fixed frame count. A duration alone gives a fixed duration only when it is a positive int, and is refused otherwise. Neither gives continuous. |
| TrafficItems.RawControl | tests/ixia/lib/ixia_helpers.py:206-209 | The raw builder uses a fixed frame count exactly when a positive count is given, otherwise continuous. |
| TrafficItems.RawControlAgainstShared | tests/ixia/lib/ixia_helpers.py:206-209 | The raw rule agrees with the shared rule on absent or positive counts. A zero or negative count is a frame count for the other builders but continuous for the raw builder. |
| TrafficItems.StartDelayNs | tests/ixia/lib/ixia_helpers.py:211-213 | A start delay is set only when positive, and is then that many seconds in nanoseconds. |
| TrafficItems.StartDelayAsWrittenAgainstIntended | tests/ixia/lib/ixia_helpers.py:211-213 | The written delay and the documented delay are set in the same cases. The written delay is a thousandth of the documented one. |
| TrafficItems.StartDelayAsWritten | tests/ixia/lib/ixia_helpers.py:280-282 | As written, the builders set a start delay exactly when it is positive. The written value is a thousand times shorter than the delay in nanoseconds. |
| TrafficItems.StartDelayAsWrittenIsMilliseconds | tests/ixia/lib/ixia_helpers.py:211-213 | As written (×10^6 with nanosecond units), a delay of `s` seconds lasts `s` milliseconds. |
| TrafficItems.BuildRaw | tests/ixia/lib/ixia_helpers.py:192-228 | The raw item keeps its name, rate and size. Its mode is the raw rule: a fixed frame count exactly when a positive count is given. It carries the start delay as written (10^6 per second, only when positive) and copies the addresses. The DSCP list is applied exactly when it is non-empty, and then unchanged. |
| TrafficItems.BuildIpv4 | tests/ixia/lib/ixia_helpers.py:248-311 | The IPv4 item is created exactly when the bound rule allows it; a rejection happens after the item was added. A created item carries the start delay as written. It carries exactly the given DSCP list and PFC queue list when each is non-empty, and neither otherwise. The ECN bits are `10` exactly for ECN-capable traffic. |
| TrafficItems.BuildPause | tests/ixia/lib/ixia_helpers.py:327-388 | An out-of-range priority rejects before anything is added. Otherwise the item is created exactly when the bound rule allows it and a global pause or a priority list is asked for. A created item carries the start delay as written. A global item carries the global fields. A PFC item carries the PFC fields of its list: opcode 0x0101, the summed `1 << p` as its vector, and pause time 0xFFFF on exactly the listed classes. |
| TrafficItems.BoundRuleShared | tests/ixia/lib/ixia_helpers.py:347-362 | The pause builder and the IPv4 builder accept and reject the same count/duration pairs, for the same reason, with the same mode. |
| TrafficItems.GlobalPauseIgnoresPriorities | tests/ixia/lib/ixia_helpers.py:375-376 | A global pause item does not depend on which in-range priority list is passed. |
| TrafficItems.PfcItemConsistent | tests/ixia/lib/ixia_helpers.py:375-378 | In a built PFC item with distinct priorities, the vector fits in 8 bits and class `i` is enabled exactly when it is paused. |
| PfcPauseLossless.Classify | tests/ixia/test_pfc_pause_lossless.py:112-121 | A name containing `Test` is test traffic. Otherwise a name containing `PFC` is pause traffic. Anything else is background. |
| PfcPauseLossless.RowPasses | tests/ixia/test_pfc_pause_lossless.py:108-121 | Test rows must be blocked when paused and forwarded otherwise. Pause rows must be blocked. Background rows must be forwarded. |
| PfcPauseLossless.RowVerdictExclusive | tests/ixia/test_pfc_pause_lossless.py:113-121 | Every passing row sent frames. A test row cannot pass both the paused and the unpaused rule. Other rows do not depend on `paused`. |
| PfcPauseLossless.FirstFailingRow | tests/ixia/test_pfc_pause_lossless.py:108-121 | The rows are checked in order. The first failing row is reported, and None is returned exactly when every row passes. |
| PfcPauseLossless.LabelsClassifyAsIntended | tests/ixia/test_pfc_pause_lossless.py:67-98 | The three stream names fall into the test, background and pause kinds they are meant for. |
| PfcPauseLossless.RemoveFirst | tests/ixia/test_pfc_pause_lossless.py:181-182 | `list.remove` succeeds exactly when the value is present. It deletes the first occurrence only, so the multiset loses exactly one copy of the value. |
| PfcPauseLossless.FirstIndex | tests/ixia/test_pfc_pause_lossless.py:181-182 | The index `list.remove` deletes at holds the value and no earlier entry does; it is the length when the value is absent. |
| PfcPauseLossless.BackgroundPrioritiesExcludeTested | tests/ixia/test_pfc_pause_lossless.py:158-182 | For each lossless priority, the background priorities are three valid priorities that exclude it. |
| PfcPauseLossless.BackgroundPrioritiesValue | tests/ixia/test_pfc_pause_lossless.py:158-182 | Testing priority 3 leaves `[4, 0, 1]` as background and testing 4 leaves `[3, 0, 1]`, in list order. |
| PfcPauseLossless.FirstSpeedMismatch | tests/ixia/test_pfc_pause_lossless.py:171-179 | The first ring pair whose speeds differ, with all earlier pairs matching. |
| PfcPauseLossless.ExperimentFor | tests/ixia/test_pfc_pause_lossless.py:171-193 | Port `i` receives and `(i + 1) % n` transmits. The transmitter's speed is the port speed, the tested list is `[prio]`, and the background list is what `list.remove` leaves. |
| PfcPauseLossless.LosslessPlan | tests/ixia/test_pfc_pause_lossless.py:156-194 | The experiments the loop attempts when every experiment passes. There is no plan with fewer than two ports. The plan is marked complete exactly when every ring pair has equal speeds, and then holds `2n` runs. Otherwise it holds the runs before the first mismatching pair, where the speed assertion stops the loop. Run `r` of the first pass has port `r` receiving and port `(r + 1) % n` transmitting, testing priority 3. Run `n + i` of the second pass does the same for port `i`, testing priority 4. Every run is the `ExperimentFor` of its port and priority, so its background list, bandwidth, duration and `paused` flag are fixed too. |
| PfcPauseLossless.PlanRunsWellFormed | tests/ixia/test_pfc_pause_lossless.py:163-194 | Each experiment has a receiving port and its ring partner transmitting, two different ports of equal speed. It tests one lossless priority, keeps that priority out of three background priorities, and runs 2 s paused. |
| PfcPauseLossless.ExperimentForWellFormed | tests/ixia/test_pfc_pause_lossless.py:171-182 | The experiment for loop index `i` has port `i` receiving and its ring partner transmitting, at the partner's speed. It tests one priority, and the three background priorities leave that priority out. |
| PfcPauseLossless.PlannedStreamsBuilt | tests/ixia/test_pfc_pause_lossless.py:66-85 | The two data streams of every planned experiment are built and run for the experiment's duration. Their start delay of `1` is written as 10^6 ns, which is 1 ms. The test stream carries the tested priority as its DSCP list and its PFC queue. The background stream carries the background priorities as its DSCP list and no PFC queue. |
| PfcPauseLossless.PlannedStormBuilt | tests/ixia/test_pfc_pause_lossless.py:86-98 | On a port of non-zero speed, every planned experiment's pause storm is built. It is continuous with no start delay, and sends 1.1 frames per longest pause time. It enables and pauses exactly the tested priority. |
| PfcPauseLossless.StormOfOnePriority | tests/ixia/test_pfc_pause_lossless.py:86-98 | The storm of an experiment testing one valid priority has those properties. |
| PfcPauseLossless.PauseStorm | tests/ixia/test_pfc_pause_lossless.py:88-98 | The storm exists exactly when the port speed is non-zero; a zero speed makes the rate computation divide by zero. |
| PfcPauseLossless.PortListEntry | tests/ixia/test_pfc_pause_lossless.py:139-147 | An entry holds the neighbour lookups and the speed `int()` reads. It exists exactly when the speed is an integer literal with only whitespace around it. |
| PfcPauseLossless.PortListEntryPaddedSpeed | tests/ixia/test_pfc_pause_lossless.py:139-147 | A speed written with whitespace around it still gives an entry, with that speed. |
| PfcPauseLossless.PortList | tests/ixia/test_pfc_pause_lossless.py:139-147 | The port list has one entry per visited interface, in order. It exists exactly when `int()` accepts every speed. |
| PfcPauseLossless.PlanOverPortList | tests/ixia/test_pfc_pause_lossless.py:139-194 | When the port list visits every interface of the graph once, the plan over its speeds exists exactly when the graph has at least two interfaces. Every planned experiment then runs at the speed `int()` reads from the graph for both its receiving and its transmitting interface. |
| PfcPauseLossless.PauseSecondsPerFrame | tests/ixia/test_pfc_pause_lossless.py:89 | The pause time of one frame times the speed in bit/s is 65535 × 512 bits. It is positive for a positive speed. |
| PfcPauseLossless.PauseStormRate | tests/ixia/test_pfc_pause_lossless.py:88-95 | The storm rate times the longest pause per frame is 1.1. |
| Ring.RingPeer | tests/ixia/test_pfc_pause_lossless.py:171-172 | The partner is in range, is the next port (the first after the last), and differs from the port itself when there are at least two. |
| Ring.RingPeerInjective | tests/qos/test_pfc_pause.py:109-111 | No two ports of one pass share a partner. |
| Ring.RingPeerCovers | tests/qos/test_pfc_pause.py:109-111 | Every port is some port's partner. |
| QosPfcPause.IterationCount | tests/qos/test_pfc_pause.py:109 | The number of iterations is the interface count capped at the limit, and 0 for a negative limit. |
| QosPfcPause.PauseGeneratorFor | tests/qos/test_pfc_pause.py:146-149 | PFC mode sends the mask `2**prio`, which has exactly the paused priority's bit set. Otherwise a global storm is sent. Both use the given pause time and 10^9 frames. |
| QosPfcPause.StormFor | tests/qos/test_pfc_pause.py:140-152 | A generator is started exactly when pause frames are to be sent. |
| QosPfcPause.PfcCaseSettings | tests/qos/test_pfc_pause.py:256-267 | The PFC case's storm pauses only the tested priority, for 65535 quanta, with 10^9 frames. At most four interfaces are tested, or all of them when there are fewer. |
| QosPfcPause.ParsePtfOutput | tests/qos/test_pfc_pause.py:163-174 | Any word count other than four gives `[0, 0]`. With four words, the parse fails exactly when the second or fourth is not an integer literal. Otherwise the result is those two words' integer values. |
| QosPfcPause.ParsePtfReport | tests/qos/test_pfc_pause.py:163-174 | Parsing `Passes: a / b` gives back `[a, b]`. |
| QosPfcPause.ResultsUpToAborts | tests/qos/test_pfc_pause.py:136-174 | The run aborts exactly when a tested iteration's report does not parse. |
| QosPfcPause.ResultsUpToKeys | tests/qos/test_pfc_pause.py:109-174 | The interfaces with a result are exactly those paused by a tested (not skipped) iteration. |
| QosPfcPause.ResultsUpToValues | tests/qos/test_pfc_pause.py:123-174 | Each stored result is the parsed report of the last tested iteration that paused that interface. |
| QosPfcPause.RunT0 | tests/qos/test_pfc_pause.py:107-183 | The run aborts exactly when a tested iteration's report does not parse; only DUT interfaces get results. |
| QosPfcPause.RunT0CoversAllInterfaces | tests/qos/test_pfc_pause.py:109-123 | When every interface is iterated and none is skipped, every DUT interface has a result. |
| QosPfcPause.RunTest | tests/qos/test_pfc_pause.py:217-231 | Only topologies named `t0...` run. Such a run aborts exactly when a report does not parse, and otherwise yields the T0 results. |
| QosPfcPause.CollectErrors | tests/qos/test_pfc_pause.py:273-285 | An interface is flagged exactly when its result has two entries, a non-zero total, and passes below 0.75 of the total. Flagged entries keep their result. |
| QosPfcPause.CasePasses | tests/qos/test_pfc_pause.py:269-289 | A case passes exactly when the run completed and no interface fails the ratio. |
| QosPfcPause.ParsedResultVerdict | tests/qos/test_pfc_pause.py:163-174 | Unrecognised output is never flagged. A report `a / b` is flagged exactly when `b != 0` and `a < 0.75 * b`. |
| QosPfcPause.LossyDscps | tests/qos/test_pfc_pause.py:244-246 | Lossy and lossless DSCPs are disjoint and together cover 0..63; lossy values are in 0..63. |
| QosPfcPause.LosslessDscps | tests/qos/test_pfc_pause.py:244 | A value is lossless exactly when some lossless priority maps to it. |
| QosPfcPause.OtherLosslessDscps | tests/qos/test_pfc_pause.py:250 | These are the lossless values not mapped to the current priority. |
| QosPfcPause.BackgroundDscps | tests/qos/test_pfc_pause.py:250-252 | The background values are the other lossless values plus the two sampled lossy ones; none belongs to the tested priority. |
| QosPfcPause.TestCases | tests/qos/test_pfc_pause.py:254-267 | The cases are exactly the pairs of a DSCP of the tested priority and a background DSCP. No case's background DSCP belongs to the tested priority. |
| Decimal.ParseInt | tests/qos/test_pfc_pause.py:174 | `int(word)` succeeds exactly on an optional sign followed by digits. The value is the digits' decimal value, negated after a `-` sign. |
| Decimal.ParseIntExamples | tests/qos/test_pfc_pause.py:174 | `007` reads 7, `+5` reads 5, `-0` reads 0 and `-12` reads -12. A lone sign, the empty word and `5-` are refused. |
| Decimal.ParseIntOfIntToString | tests/qos/test_pfc_pause.py:174 | Reading back a rendered integer gives the integer. |
| Text.Contains | tests/ixia/test_pfc_pause_lossless.py:112 | `sub in s` holds exactly when `sub` occurs at some index. |
| Text.WordsOfJoinSpaced | tests/qos/test_pfc_pause.py:163 | `split()` recovers words joined by single spaces. |
| Text.Strip | tests/ixia/test_pfc_pause_lossless.py:147 | Stripping keeps a slice with only whitespace before and after it. A non-empty result neither starts nor ends with whitespace. |
| Text.StripPadded | tests/ixia/test_pfc_pause_lossless.py:147 | Stripping a word padded with whitespace gives back the word. |
| Text.IntOf | tests/ixia/test_pfc_pause_lossless.py:147 | `int(text)` succeeds only on an integer literal with nothing but whitespace around it, and reads that literal. |
| Text.IntOfPaddedLiteral | tests/ixia/test_pfc_pause_lossless.py:147 | Conversely, any integer literal with only whitespace around it is accepted and read. |
| Text.IntOfPadded | tests/ixia/test_pfc_pause_lossless.py:147 | A rendered integer with whitespace around it reads back as that integer. |

## Left out

- Vendor SDK calls (sessions, port mapping, topologies, protocol start,
  traffic start and stop, statistics views, capture, download) and Ansible
  commands: they are foreign and stateful. Only the values the code writes
  are modelled.
- `create_session`, `remove_session`, `config_port_capture_pkt`,
  `create_topology`, `start_protocols`, `create_pkt_hdr`, `get_statistics`,
  `start_traffc`, `stop_traffic`, `start_capture`, `stop_capture`,
  `save_capture_pkts`, `download_file`: thin wrappers over SDK calls with no
  decision of their own.
- `get_captured_data_pkts`: the capture reads and the packet counter are
  SDK calls. The header stack of each packet is an input
  (`CapturedPackets.CapturedHeader`).
- `get_ecn`, `get_dscp`: `get_pkt_field` with fixed header and field names.
- `set_eth_fields`, `set_ip_fields`: the raw item records the addresses and
  DSCP list they would write.
- `setup_testbed`, `time.sleep`, MAC-table clearing and pings: I/O and
  timing. `check_mac_table` and the PTF output are inputs
  (`QosPfcPause.Iteration`).
- `config_testbed_t0`, `eos_to_linux_intf` and the peer-device lookup for
  the pause generator are not part of this model. The interfaces are an
  input, and the generator records its mask, pause time and count rather
  than its command line.
- `run_test_t0` counts iterations over `ptf_intfs` and indexes `dut_intfs`
  with the same index; the model has one interface list, assuming the two
  lists that `config_testbed_t0` returns have the same length.
- `random.sample(lossy_dscps, k=2)`: the sample is a parameter constrained
  by `IsLossySample`.
- QosPfcPause.BackgroundDscps: requires `IsLossySample`, two distinct lossy
  values. When fewer than two DSCP values are lossy, `random.sample` raises
  `ValueError` (tests/qos/test_pfc_pause.py:252). The model does not cover
  that failure.
- QosPfcPause.LosslessDscps: the map's DSCP values are integers, so
  `int(dscp)` (tests/qos/test_pfc_pause.py:244) is the identity. Lines 250
  and 254 use the map's raw values. If the map held strings, line 250 would
  remove nothing and line 254 would pass strings on. The model does not
  cover that.
- PfcPauseLossless.PauseSecondsPerFrame: requires a non-zero port speed.
  A zero speed raises `ZeroDivisionError`
  (tests/ixia/test_pfc_pause_lossless.py:89). `PauseStorm` covers that
  case by returning no storm.
- PfcPauseLossless.LosslessPlan: the plan does not include experiment
  outcomes. A failing row (`FirstFailingRow` returning `Some`) fails an
  assertion in `run_pfc_exp` (tests/ixia/test_pfc_pause_lossless.py:114-121)
  and ends the test, as does the VLAN-subnet assertion at line 41. The plan
  lists the experiments attempted when all of them pass.
- Text.IntOf, PfcPauseLossless.PortListEntry, PfcPauseLossless.PortList:
  Python 2's `int()` also accepts whitespace between the sign and the
  digits (`int("- 5")`). These members refuse it.
- Iteration order of Python dicts (`device_conn`, `lossless_prio_dscp_map`):
  the visiting order is a parameter (`PortList`), and the DSCP cases are a
  set.
- The traffic items do not record their endpoints. The experiment records
  which port receives and which transmits (`rxId`, `txId`). The data
  streams go from the transmitting port's topology to the receiving one's,
  and the pause storm is sent from the receiving port; this is not part of
  the item records.
- The SDK's order of `Vport.find()` is assumed to be the mapping order, as
  `config_ports` does.
- PfcPauseLossless.PauseStormRate: floating point is modelled with exact
  reals, so rounding is not.
- TrafficItems.TransmissionControl: `sys.maxint` is taken as 2^63 - 1, a
  64-bit build. A duration above it is a Python `long` and is refused. A
  small value written as a `long` (`5L`) is also refused by the source's
  `type(duration) == int` check. The model has no separate `long` type, so
  a caller passes such a value as `NotWholeSeconds`.
- TrafficItems.StartDelayNs: a start delay is an integer number of seconds;
  a fractional delay is not modelled.
- TrafficItems.BuildPause: the frame rate is passed through as given.
  `create_pause_traffic` does not check it.
- PauseFields.EnableVector: requires non-negative priorities. Python's
  `1 << p` raises for negative `p`, and the pause builder's range check runs
  first, so no caller reaches it.
- The eight per-class fields are written as the hexadecimal strings
  `'ffff'` and `'0'`, and the vector as `hex(val)`; the model keeps the
  integers they denote.
- `print` messages and assertion texts.
- `test_no_pfc` runs the same case loop and error collection as
  `test_pfc_pause_lossless`. It differs only in sending no pause frames
  (`StormFor` with `sendPause` false) and expecting queues not to be paused;
  the PTF script that uses that flag is not part of this model.
- A `None` result of `run_test` fails the test (`assert 0`); this is
  `TestRun.Unsupported`, which `CasePasses` rejects.

## Findings

| source | as written | input that shows it | evidently intended | confidence | as-written member | corrected member |
|---|---|---|---|---|---|---|
| tests/ixia/lib/ixia_helpers.py:211-213 (also 280-282, 364-366) | the start delay in seconds is multiplied by 10^6 with the units set to nanoseconds | `start_delay=1` writes a delay of 10^6 ns, which is 1 ms | the documented delay in seconds: `start_delay * 10**9` nanoseconds | medium, not executed | TrafficItems.StartDelayAsWritten, TrafficItems.StartDelayAsWrittenIsMilliseconds | TrafficItems.StartDelayNs |

=== FILE: Bits.dfy ===
/** Bit arithmetic on unbounded naturals: powers of two (`1 << p`), bit
    tests, and the eight-bit masks the pause frame carries. */
module Bits {

  /** `1 << n`. */
  function Pow2(n: nat): (r: nat)
    ensures r >= 1
  {
    if n == 0 then 1 else 2 * Pow2(n - 1)
  }

  /** Bit `i` of `v` is one. */
  predicate BitSet(v: nat, i: nat) {
    if i == 0 then v % 2 == 1 else BitSet(v / 2, i - 1)
  }

  /** The number of bits a priority-enable mask covers. */
  const MaskWidth: nat := 8

  /** The mask whose bit `j - k` is set exactly when `j` is in `s`, for
      `k <= j < MaskWidth`: built from the low bit up. */
  function MaskFrom(s: set<int>, k: nat): (mask: nat)
    requires k <= MaskWidth
    decreases MaskWidth - k
  {
    if k == MaskWidth then 0
    else (if k in s then 1 else 0) + 2 * MaskFrom(s, k + 1)
  }

  lemma {:induction false} NoBitsOfZero(i: nat)
    ensures !BitSet(0, i)
  {
    if i > 0 {
      NoBitsOfZero(i - 1);
    }
  }

  /** `1 << p` has exactly bit `p` set. */
  lemma {:induction false} Pow2Bits(p: nat, i: nat)
    ensures BitSet(Pow2(p), i) <==> i == p
    decreases p
  {
    if p == 0 {
      if i > 0 {
        NoBitsOfZero(i - 1);
      }
    } else if i > 0 {
      assert Pow2(p) / 2 == Pow2(p - 1);
      Pow2Bits(p - 1, i - 1);
    }
  }

  /** Bit `j - k` of `MaskFrom(s, k)` is set exactly when `j` is in `s`. */
  lemma {:induction false} MaskFromBits(s: set<int>, k: nat, j: nat)
    requires k <= j < MaskWidth
    ensures BitSet(MaskFrom(s, k), j - k) <==> j in s
    decreases j - k
  {
    if j > k {
      var m := MaskFrom(s, k);
      assert m / 2 == MaskFrom(s, k + 1);
      MaskFromBits(s, k + 1, j);
    }
  }

  /** Bits at or above `MaskWidth - k` of `MaskFrom(s, k)` are zero. */
  lemma {:induction false} MaskFromBound(s: set<int>, k: nat)
    requires k <= MaskWidth
    ensures MaskFrom(s, k) < Pow2(MaskWidth - k)
    decreases MaskWidth - k
  {
    if k < MaskWidth {
      MaskFromBound(s, k + 1);
    }
  }

  /** Only the members in `[k, MaskWidth)` matter to `MaskFrom(s, k)`. */
  lemma {:induction false} MaskFromIgnoresBelow(s: set<int>, t: set<int>, k: nat)
    requires k <= MaskWidth
    requires forall j :: k <= j < MaskWidth ==> (j in s <==> j in t)
    ensures MaskFrom(s, k) == MaskFrom(t, k)
    decreases MaskWidth - k
  {
    if k < MaskWidth {
      MaskFromIgnoresBelow(s, t, k + 1);
    }
  }

  /** Adding a new member `p` to the set adds `1 << (p - k)` to the mask. */
  lemma {:induction false} MaskFromInsert(s: set<int>, p: nat, k: nat)
    requires k <= p < MaskWidth && p !in s
    ensures MaskFrom(s + {p}, k) == MaskFrom(s, k) + Pow2(p - k)
    decreases p - k
  {
    var t := s + {p};
    if p == k {
      MaskFromIgnoresBelow(t, s, k + 1);
      var rest := MaskFrom(s, k + 1);
      assert MaskFrom(t, k) == 1 + 2 * rest;
      assert MaskFrom(s, k) == 2 * rest;
      assert Pow2(0) == 1;
    } else {
      var b := if k in s then 1 else 0;
      assert (k in t) == (k in s);
      MaskFromInsert(s, p, k + 1);
      var rest := MaskFrom(s, k + 1);
      var q := Pow2(p - (k + 1));
      assert MaskFrom(t, k + 1) == rest + q;
      assert Pow2(p - k) == 2 * q;
      assert MaskFrom(t, k) == b + 2 * (rest + q);
      assert MaskFrom(s, k) == b + 2 * rest;
    }
  }
}

=== FILE: CapturedPackets.dfy ===
/** Decoding a captured packet's header stack into header name -> field
    name -> value, and reading one field back out of it. */
module CapturedPackets {
  import opened Options

  /** A decoded packet: display name of each header to its fields. */
  type Packet = map<string, map<string, string>>

  /** `get_pkt_field`: the stored value, or `None` when the packet has no
      such header or the header has no such field. */
  function GetPktField(pkt: Packet, header: string, field: string): (r: Option<string>)
    ensures r.Some? <==> header in pkt && field in pkt[header]
    ensures r.Some? ==> r.value == pkt[header][field]
  {
    if header !in pkt then None
    else if field !in pkt[header] then None
    else Some(pkt[header][field])
  }

  /** Adding a field to a header makes it readable, and leaves every other
      (header, field) pair reading as before. */
  lemma GetPktFieldAfterStore(pkt: Packet, header: string, field: string, value: string, h: string, f: string)
    ensures var fields := if header in pkt then pkt[header] else map[];
            var stored := pkt[header := fields[field := value]];
            GetPktField(stored, h, f) ==
              if h == header && f == field then Some(value)
              else if h == header then (if f in fields then Some(fields[f]) else None)
              else GetPktField(pkt, h, f)
  {
  }

  /** One field of a captured header, as the capture reports it. */
  datatype CapturedField = CapturedField(name: string, value: string)

  /** One header of a captured packet's stack, with its fields in order. */
  datatype CapturedHeader = CapturedHeader(name: string, fields: seq<CapturedField>)

  /** The field map of one header: each field is stored under its display
      name in turn, so a later field of the same name overwrites. */
  function DecodeFields(fs: seq<CapturedField>): (m: map<string, string>)
    ensures forall f :: f in m <==> exists k :: 0 <= k < |fs| && fs[k].name == f
  {
    if |fs| == 0 then map[]
    else
      var m := DecodeFields(fs[..|fs| - 1]);
      assert forall k :: 0 <= k < |fs| - 1 ==> fs[..|fs| - 1][k] == fs[k];
      m[fs[|fs| - 1].name := fs[|fs| - 1].value]
  }

  /** A header's field reads as the last field of that name. */
  lemma {:induction false} DecodeFieldsLast(fs: seq<CapturedField>, k: nat)
    requires k < |fs|
    requires forall k' :: k < k' < |fs| ==> fs[k'].name != fs[k].name
    ensures fs[k].name in DecodeFields(fs)
    ensures DecodeFields(fs)[fs[k].name] == fs[k].value
    decreases |fs|
  {
    if k < |fs| - 1 {
      var init := fs[..|fs| - 1];
      assert init[k] == fs[k];
      DecodeFieldsLast(init, k);
    }
  }

  /** The decoded packet: each header starts a fresh field map under its
      display name, so a later header of the same name replaces the earlier
      one's fields entirely. */
  function DecodePacket(hdrs: seq<CapturedHeader>): (pkt: Packet)
    ensures forall h :: h in pkt <==> exists j :: 0 <= j < |hdrs| && hdrs[j].name == h
  {
    if |hdrs| == 0 then map[]
    else
      var pkt := DecodePacket(hdrs[..|hdrs| - 1]);
      assert forall j :: 0 <= j < |hdrs| - 1 ==> hdrs[..|hdrs| - 1][j] == hdrs[j];
      pkt[hdrs[|hdrs| - 1].name := DecodeFields(hdrs[|hdrs| - 1].fields)]
  }

  /** A header reads as the fields of the last header of that name; the
      fields of earlier headers of the same name are gone. */
  lemma {:induction false} DecodePacketLast(hdrs: seq<CapturedHeader>, j: nat)
    requires j < |hdrs|
    requires forall j' :: j < j' < |hdrs| ==> hdrs[j'].name != hdrs[j].name
    ensures hdrs[j].name in DecodePacket(hdrs)
    ensures DecodePacket(hdrs)[hdrs[j].name] == DecodeFields(hdrs[j].fields)
    decreases |hdrs|
  {
    if j < |hdrs| - 1 {
      var init := hdrs[..|hdrs| - 1];
      assert init[j] == hdrs[j];
      DecodePacketLast(init, j);
    }
  }

  /** `get_captured_data_pkts`: one decoded packet per captured packet, in
      capture order. */
  function DecodeCapture(captured: seq<seq<CapturedHeader>>): (pkts: seq<Packet>)
    ensures |pkts| == |captured|
    ensures forall i :: 0 <= i < |captured| ==> pkts[i] == DecodePacket(captured[i])
  {
    seq(|captured|, i requires 0 <= i < |captured| => DecodePacket(captured[i]))
  }

  /** Reading a field of a decoded packet: present exactly when the last
      header of that name has a field of that name, and then the last such
      field's value. */
  lemma ReadDecodedField(hdrs: seq<CapturedHeader>, j: nat, k: nat)
    requires j < |hdrs| && k < |hdrs[j].fields|
    requires forall j' :: j < j' < |hdrs| ==> hdrs[j'].name != hdrs[j].name
    requires forall k' :: k < k' < |hdrs[j].fields| ==> hdrs[j].fields[k'].name != hdrs[j].fields[k].name
    ensures GetPktField(DecodePacket(hdrs), hdrs[j].name, hdrs[j].fields[k].name) == Some(hdrs[j].fields[k].value)
  {
    DecodePacketLast(hdrs, j);
    DecodeFieldsLast(hdrs[j].fields, k);
  }

  /** A field that only an earlier header of the same name carried is not
      readable: the later header's fresh map does not have it. */
  lemma ReadShadowedField(hdrs: seq<CapturedHeader>, j: nat, f: string)
    requires j < |hdrs|
    requires forall j' :: j < j' < |hdrs| ==> hdrs[j'].name != hdrs[j].name
    requires forall k :: 0 <= k < |hdrs[j].fields| ==> hdrs[j].fields[k].name != f
    ensures GetPktField(DecodePacket(hdrs), hdrs[j].name, f).None?
  {
    DecodePacketLast(hdrs, j);
  }
}

=== FILE: Decimal.dfy ===
/** Decimal digit strings: how Python's `str(n)` renders an integer and how
    `int(word)` reads one back. */
module Decimal {
  import opened Options

  predicate IsDigit(c: char) {
    '0' <= c <= '9'
  }

  predicate AllDigits(s: string) {
    forall i :: 0 <= i < |s| ==> IsDigit(s[i])
  }

  function DigitValue(c: char): (d: nat)
    requires IsDigit(c)
  {
    (c as int) - ('0' as int)
  }

  function DigitChar(d: nat): (c: char)
    requires d < 10
    ensures IsDigit(c) && DigitValue(c) == d
  {
    (('0' as int) + d) as char
  }

  /** The number a digit string denotes, most significant digit first. */
  function ValueOf(s: string): (n: nat)
    requires AllDigits(s)
  {
    if |s| == 0 then 0 else ValueOf(s[..|s| - 1]) * 10 + DigitValue(s[|s| - 1])
  }

  /** `str(n)` for a non-negative integer: the shortest digit string
      denoting `n`. */
  function NatToString(n: nat): (r: string)
    ensures |r| > 0 && AllDigits(r)
    ensures ValueOf(r) == n
    ensures |r| > 1 ==> r[0] != '0'
  {
    if n < 10 then [DigitChar(n)]
    else
      var r := NatToString(n / 10) + [DigitChar(n % 10)];
      assert r[..|r| - 1] == NatToString(n / 10);
      r
  }

  /** `str(i)` for any integer: a minus sign in front of negative values. */
  function IntToString(i: int): (r: string)
    ensures |r| > 0
    ensures r[0] == '-' <==> i < 0
    ensures i >= 0 ==> r == NatToString(i)
    ensures i < 0 ==> r[1..] == NatToString(-i)
  {
    if i < 0 then "-" + NatToString(-i) else NatToString(i)
  }

  /** Distinct numbers render to distinct strings. */
  lemma NatToStringInjective(a: nat, b: nat)
    requires NatToString(a) == NatToString(b)
    ensures a == b
  {
  }

  predicate IsSign(c: char) {
    c == '+' || c == '-'
  }

  /** The words Python 2's `int(word)` accepts once surrounding whitespace has
      been stripped: an optional sign followed by at least one digit. */
  predicate IsIntLiteral(w: string) {
    || (|w| > 0 && AllDigits(w))
    || (|w| > 1 && IsSign(w[0]) && AllDigits(w[1..]))
  }

  /** `int(word)` in base 10; `None` stands for the `ValueError` Python
      raises on anything else. */
  function ParseInt(w: string): (r: Option<int>)
    ensures r.Some? <==> IsIntLiteral(w)
    ensures r.Some? && AllDigits(w) ==> r.value == ValueOf(w)
    ensures r.Some? && w[0] == '+' ==> r.value == ValueOf(w[1..])
    ensures r.Some? && w[0] == '-' ==> r.value == -(ValueOf(w[1..]) as int)
  {
    if |w| > 1 && IsSign(w[0]) && AllDigits(w[1..]) then
      Some(if w[0] == '-' then 0 - ValueOf(w[1..]) else ValueOf(w[1..]) as int)
    else if |w| > 0 && AllDigits(w) then
      Some(ValueOf(w))
    else
      None
  }

  /** Leading zeros, an explicit plus and a negative zero are all read as
      Python reads them; a lone sign, an empty word and a trailing sign are
      not integers. */
  lemma ParseIntExamples()
    ensures ParseInt("007") == Some(7)
    ensures ParseInt("+5") == Some(5)
    ensures ParseInt("-0") == Some(0)
    ensures ParseInt("-12") == Some(-12)
    ensures ParseInt("-").None? && ParseInt("").None? && ParseInt("5-").None?
  {
    assert ValueOf("007") == 10 * ValueOf("00") + 7 by {
      assert "007"[..2] == "00";
    }
    assert ValueOf("00") == 0 by {
      assert "00"[..1] == "0";
    }
    assert "+5"[1..] == "5";
    assert "-0"[1..] == "0";
    assert "-12"[1..] == "12";
    assert ValueOf("12") == 12 by {
      assert "12"[..1] == "1";
    }
    assert !AllDigits("5-") by {
      assert !IsDigit("5-"[1]);
    }
    assert !AllDigits("-") by {
      assert !IsDigit("-"[0]);
    }
  }

  /** Reading back what `str` wrote gives the original integer. */
  lemma ParseIntOfIntToString(i: int)
    ensures ParseInt(IntToString(i)) == Some(i)
  {
    var s := IntToString(i);
    if i < 0 {
      assert s[1..] == NatToString(-i);
      assert !AllDigits(s) by { assert !IsDigit(s[0]); }
    } else {
      assert !IsSign(s[0]) by { assert IsDigit(s[0]); }
    }
  }
}

=== FILE: IxiaNeighbors.dfy ===
/** Looking up the traffic-generator port a DUT interface is cabled to, in
    the testbed connectivity graph (`device_conn`). */
module IxiaNeighbors {
  import opened Options
  import opened Decimal
  import opened Text

  /** One entry of `device_conn`: the neighbour of a DUT interface. */
  datatype Link = Link(peerDevice: string, peerPort: string, speed: string)

  /** `conn_graph_facts['device_conn']`: DUT interface name to its link. */
  type DeviceConn = map<string, Link>

  /** The management address of the chassis the interface is cabled to;
      `None` when the interface is not in the graph or its peer is not a
      known chassis. */
  function NeighMgmtIp(intf: string, conn: DeviceConn, chassis: map<string, string>): (r: Option<string>)
    ensures r.Some? <==> intf in conn && conn[intf].peerDevice in chassis
    ensures r.Some? ==> r.value == chassis[conn[intf].peerDevice]
  {
    if intf !in conn then None
    else if conn[intf].peerDevice !in chassis then None
    else Some(chassis[conn[intf].peerDevice])
  }

  const CardTag := "Card"
  const PortTag := "/Port"

  /** The text `re.match(r'Card(\d+)/Port(\d+)', s)` matches with groups
      `card` and `port`: the match is anchored at the start only, and each
      greedy `\d+` takes every digit there is, so the character after the
      port digits (if any) is not a digit. */
  predicate CardPortForm(s: string, card: string, port: string) {
    var head := CardTag + card + PortTag + port;
    && |card| > 0 && AllDigits(card)
    && |port| > 0 && AllDigits(port)
    && head <= s
    && (|s| == |head| || !IsDigit(s[|head|]))
  }

  /** The two digit groups of `Card<d+>/Port<d+>` at the start of `s`. */
  function ParseCardPort(s: string): (r: Option<(string, string)>) {
    if !(CardTag <= s) then None
    else
      var t := s[|CardTag|..];
      var k := DigitRun(t);
      if k == 0 then None
      else
        var u := t[k..];
        if !(PortTag <= u) then None
        else
          var v := u[|PortTag|..];
          var j := DigitRun(v);
          if j == 0 then None
          else Some((t[..k], v[..j]))
  }

  /** Whatever the parser returns has the form it looks for. */
  lemma ParseCardPortSound(s: string)
    requires ParseCardPort(s).Some?
    ensures CardPortForm(s, ParseCardPort(s).value.0, ParseCardPort(s).value.1)
  {
    var t := s[|CardTag|..];
    var k := DigitRun(t);
    var u := t[k..];
    var v := u[|PortTag|..];
    var j := DigitRun(v);
    assert CardTag <= s && k > 0 && PortTag <= u && j > 0;
    var card, port := t[..k], v[..j];
    assert ParseCardPort(s) == Some((card, port));
    var rest := v[j..];
    assert s == CardTag + t;
    assert t == card + u;
    assert u == PortTag + v;
    assert v == port + rest;
    assert s == CardTag + (card + (PortTag + (port + rest)));
    var head := CardTag + card + PortTag + port;
    ConcatAssoc(CardTag, card, PortTag, port, rest);
    PrefixOfConcat(head, rest);
    assert |rest| == 0 || rest[0] == v[j];
  }

  lemma ConcatAssoc(a: string, b: string, c: string, d: string, e: string)
    ensures a + (b + (c + (d + e))) == a + b + c + d + e
  {
  }

  lemma PrefixOfConcat(a: string, b: string)
    ensures a <= a + b
    ensures |b| > 0 ==> (a + b)[|a|] == b[0]
  {
    assert (a + b)[..|a|] == a;
  }

  /** A string of the form `Card<card>/Port<port>...` parses to exactly
      `card` and `port`. */
  lemma ParseCardPortComplete(s: string, card: string, port: string)
    requires CardPortForm(s, card, port)
    ensures ParseCardPort(s) == Some((card, port))
  {
    var head := CardTag + card + PortTag + port;
    var t := s[|CardTag|..];
    assert s[..|head|] == head;
    assert t[..|card|] == card;
    assert t[|card|] == '/';
    DigitRunOfPrefix(card, t);
    var u := t[|card|..];
    assert u[..|PortTag|] == PortTag;
    var v := u[|PortTag|..];
    assert v[..|port|] == port;
    assert |v| == |port| || v[|port|] == s[|head|];
    DigitRunOfPrefix(port, v);
  }

  /** The parser returns `(card, port)` exactly when `s` has that form; in
      particular it returns `None` when no such form exists. */
  lemma ParseCardPortCorrect(s: string, card: string, port: string)
    ensures ParseCardPort(s) == Some((card, port)) <==> CardPortForm(s, card, port)
  {
    if ParseCardPort(s) == Some((card, port)) {
      ParseCardPortSound(s);
    }
    if CardPortForm(s, card, port) {
      ParseCardPortComplete(s, card, port);
    }
  }

  /** Writing `Card<c>/Port<p>` followed by any non-digit text and parsing it
      gives back `c` and `p`. */
  lemma ParseCardPortRoundTrip(card: string, port: string, rest: string)
    requires |card| > 0 && AllDigits(card) && |port| > 0 && AllDigits(port)
    requires |rest| == 0 || !IsDigit(rest[0])
    ensures ParseCardPort(CardTag + card + PortTag + port + rest) == Some((card, port))
  {
    var s := CardTag + card + PortTag + port + rest;
    var head := CardTag + card + PortTag + port;
    assert s == head + rest;
    assert |s| == |head| || s[|head|] == rest[0];
    ParseCardPortCorrect(s, card, port);
  }

  /** `get_neigh_ixia_card`: the card number of the neighbour port. */
  function NeighCard(intf: string, conn: DeviceConn): (r: Option<string>)
    ensures intf !in conn ==> r.None?
    ensures r.Some? ==> exists port :: CardPortForm(conn[intf].peerPort, r.value, port)
    ensures intf in conn ==>
      forall card, port :: CardPortForm(conn[intf].peerPort, card, port) ==> r == Some(card)
  {
    if intf !in conn then None
    else
      var peer := conn[intf].peerPort;
      match ParseCardPort(peer)
      case None =>
        assert forall card, port :: !CardPortForm(peer, card, port) by {
          forall card, port ensures !CardPortForm(peer, card, port) {
            ParseCardPortCorrect(peer, card, port);
          }
        }
        None
      case Some(cp) =>
        ParseCardPortCorrect(peer, cp.0, cp.1);
        assert forall card, port :: CardPortForm(peer, card, port) ==> card == cp.0 by {
          forall card, port | CardPortForm(peer, card, port) ensures card == cp.0 {
            ParseCardPortCorrect(peer, card, port);
          }
        }
        Some(cp.0)
  }

  /** `get_neigh_ixia_port`: the port number of the neighbour port. */
  function NeighPort(intf: string, conn: DeviceConn): (r: Option<string>)
    ensures intf !in conn ==> r.None?
    ensures r.Some? ==> exists card :: CardPortForm(conn[intf].peerPort, card, r.value)
    ensures intf in conn ==>
      forall card, port :: CardPortForm(conn[intf].peerPort, card, port) ==> r == Some(port)
  {
    if intf !in conn then None
    else
      var peer := conn[intf].peerPort;
      match ParseCardPort(peer)
      case None =>
        assert forall card, port :: !CardPortForm(peer, card, port) by {
          forall card, port ensures !CardPortForm(peer, card, port) {
            ParseCardPortCorrect(peer, card, port);
          }
        }
        None
      case Some(cp) =>
        ParseCardPortCorrect(peer, cp.0, cp.1);
        assert forall card, port :: CardPortForm(peer, card, port) ==> port == cp.1 by {
          forall card, port | CardPortForm(peer, card, port) ensures port == cp.1 {
            ParseCardPortCorrect(peer, card, port);
          }
        }
        Some(cp.1)
  }

  /** Card and port are read by one rule: one is found exactly when the
      other is. */
  lemma NeighCardPortAgree(intf: string, conn: DeviceConn)
    ensures NeighCard(intf, conn).Some? <==> NeighPort(intf, conn).Some?
  {
    if NeighCard(intf, conn).Some? {
      var card := NeighCard(intf, conn).value;
      var port :| CardPortForm(conn[intf].peerPort, card, port);
    }
    if NeighPort(intf, conn).Some? {
      var port := NeighPort(intf, conn).value;
      var card :| CardPortForm(conn[intf].peerPort, card, port);
    }
  }

  /** The three neighbour lookups read one link of the graph. Where the
      management address is found, the interface is in the graph, so the
      card is found exactly when the peer port has the `Card<d>/Port<d>`
      form; and where the card is found, the address is found exactly when
      the peer device is a known chassis. */
  lemma NeighLookupsAgree(intf: string, conn: DeviceConn, chassis: map<string, string>)
    ensures NeighMgmtIp(intf, conn, chassis).Some? ==>
      (NeighCard(intf, conn).Some? <==> exists card, port :: CardPortForm(conn[intf].peerPort, card, port))
    ensures NeighCard(intf, conn).Some? ==>
      (NeighMgmtIp(intf, conn, chassis).Some? <==> conn[intf].peerDevice in chassis)
  {
    if intf in conn {
      var peer := conn[intf].peerPort;
      if exists card, port :: CardPortForm(peer, card, port) {
        var card, port :| CardPortForm(peer, card, port);
        assert NeighCard(intf, conn) == Some(card);
      }
      if NeighCard(intf, conn).Some? {
        var port :| CardPortForm(peer, NeighCard(intf, conn).value, port);
      }
    }
  }
}

=== FILE: IxiaPorts.dfy ===
/** `config_ports`: the virtual-port name and layer-1 settings written for
    each chassis port of a session. */
module IxiaPorts {
  import opened Options
  import opened Decimal

  /** One entry of the port list handed to `config_ports`: the chassis
      address and the card and port found in the connectivity graph (any of
      which may be missing), and the link speed in Mbps. */
  datatype PortSpec = PortSpec(ip: Option<string>, card: Option<string>, port: Option<string>, speedMbps: int)

  /** The settings written for one virtual port. */
  datatype VPortConfig = VPortConfig(
    name: string,
    ip: Option<string>,
    card: Option<string>,
    port: Option<string>,
    l1Type: string,
    pfcPriorityGroups: seq<int>,
    ieeeL1Defaults: bool,
    autoNegotiation: bool,
    speed: string)

  const L1Type := "novusHundredGigLanFcoe"
  const AllPriorityGroups: seq<int> := [0, 1, 2, 3, 4, 5, 6, 7]
  const PortNamePrefix := "Port_"

  /** The name of the `index`-th mapped port, counting from one. */
  function PortName(index: nat): (r: string)
    ensures PortNamePrefix <= r
  {
    PortNamePrefix + NatToString(index)
  }

  /** No two ports receive the same name. */
  lemma PortNameInjective(i: nat, j: nat)
    requires PortName(i) == PortName(j)
    ensures i == j
  {
    assert PortName(i)[|PortNamePrefix|..] == NatToString(i);
    assert PortName(j)[|PortNamePrefix|..] == NatToString(j);
    NatToStringInjective(i, j);
  }

  /** Python 2 `speed / 1000` on integers: floor division. */
  function Gbps(speedMbps: int): (g: int)
    ensures g * 1000 <= speedMbps < (g + 1) * 1000
  {
    speedMbps / 1000
  }

  /** `'speed{}g'.format(speed / 1000)`. */
  function SpeedSetting(speedMbps: int): (setting: string) {
    "speed" + IntToString(Gbps(speedMbps)) + "g"
  }

  /** Reads a speed setting back to whole gigabits per second. */
  function ParseSpeedSetting(s: string): (gbps: Option<int>) {
    if |s| >= 6 && s[..5] == "speed" && s[|s| - 1] == 'g' then ParseInt(s[5..|s| - 1])
    else None
  }

  /** The setting records the speed in whole Gbps, rounded down: 100000 Mbps
      becomes `speed100g`, 40000 becomes `speed40g`. */
  lemma SpeedSettingRoundTrip(speedMbps: int)
    ensures ParseSpeedSetting(SpeedSetting(speedMbps)) == Some(speedMbps / 1000)
    ensures speedMbps >= 0 ==> ParseSpeedSetting(SpeedSetting(speedMbps)).value * 1000 <= speedMbps
  {
    var g := IntToString(Gbps(speedMbps));
    var s := SpeedSetting(speedMbps);
    assert s[..5] == "speed";
    assert s[5..|s| - 1] == g;
    ParseIntOfIntToString(Gbps(speedMbps));
  }

  /** The settings `config_ports` writes for one port. */
  function ConfigurePort(spec: PortSpec, index: nat): (vport: VPortConfig) {
    VPortConfig(PortName(index), spec.ip, spec.card, spec.port,
                L1Type, AllPriorityGroups, false, false, SpeedSetting(spec.speedMbps))
  }

  /** `config_ports`: the ports are named `Port_1` .. `Port_n` in list
      order, keep their chassis location, and all get the same layer-1
      settings with the speed of their own list entry. */
  function ConfigPorts(ports: seq<PortSpec>): (vports: seq<VPortConfig>)
    ensures |vports| == |ports|
    ensures forall k :: 0 <= k < |ports| ==>
      && vports[k].name == PortName(k + 1)
      && vports[k].ip == ports[k].ip
      && vports[k].card == ports[k].card
      && vports[k].port == ports[k].port
      && vports[k].speed == SpeedSetting(ports[k].speedMbps)
      && vports[k].pfcPriorityGroups == AllPriorityGroups
      && !vports[k].autoNegotiation && !vports[k].ieeeL1Defaults
    ensures forall k :: 0 <= k < |ports| ==> vports[k].l1Type == L1Type
  {
    seq(|ports|, k requires 0 <= k < |ports| => ConfigurePort(ports[k], k + 1))
  }

  /** Every configured port has its own name. */
  lemma ConfigPortsNamesDistinct(ports: seq<PortSpec>, k: nat, m: nat)
    requires k < m < |ports|
    ensures ConfigPorts(ports)[k].name != ConfigPorts(ports)[m].name
  {
    if ConfigPorts(ports)[k].name == ConfigPorts(ports)[m].name {
      PortNameInjective(k + 1, m + 1);
    }
  }
}

=== FILE: Options.dfy ===
/** The optional-value type used wherever the Python code returns `None`
    for "not found" or "rejected". */
module Options {

  datatype Option<+T> = None | Some(value: T)
}

=== FILE: PauseFields.dfy ===
/** The MAC-control fields of the pause frames the generator sends: a
    per-priority PFC frame (IEEE 802.1Qbb; opcode 0x0101, a class-enable
    vector and eight per-class pause times) or a global IEEE 802.3x PAUSE
    frame (opcode 0x0001 and one pause time). The generator's template keeps
    the PFC layout for both, so a global pause puts its pause time in the
    vector field and zero padding in the eight class fields. */
module PauseFields {
  import opened Bits

  const PfcOpcode: int := 0x0101
  const GlobalPauseOpcode: int := 0x0001
  /** The largest pause time, in quanta of 512 bit times. */
  const MaxPauseQuanta: int := 0xFFFF
  /** Priorities, and so per-class pause fields, in a PFC frame. */
  const PriorityCount: nat := 8

  /** The values written to `Control opcode`, `priority_enable_vector` and
      `PFC Queue 0` .. `PFC Queue 7` (each written as a hexadecimal string). */
  datatype Fields = Fields(opcode: int, enableVector: int, queuePause: seq<int>)

  predicate ValidPriority(p: int) {
    0 <= p < PriorityCount
  }

  predicate DistinctPriorities(prios: seq<int>) {
    forall i, j :: 0 <= i < j < |prios| ==> prios[i] != prios[j]
  }

  /** The enable vector as `set_pfc_fields` computes it: `1 << p` summed
      over the list, in order. A negative `p` makes Python's shift raise. */
  function EnableVector(prios: seq<int>): (v: nat)
    requires forall i :: 0 <= i < |prios| ==> prios[i] >= 0
  {
    if |prios| == 0 then 0 else Pow2(prios[0]) + EnableVector(prios[1..])
  }

  /** The priorities a list names. */
  function PrioritySet(prios: seq<int>): (ps: set<int>) {
    set p | p in prios
  }

  /** For distinct priorities in range the sum is the mask of their set. */
  lemma {:induction false} EnableVectorIsMask(prios: seq<int>)
    requires forall i :: 0 <= i < |prios| ==> 0 <= prios[i] < PriorityCount
    requires DistinctPriorities(prios)
    ensures EnableVector(prios) == MaskFrom(PrioritySet(prios), 0)
    decreases |prios|
  {
    if |prios| == 0 {
      assert PrioritySet(prios) == {};
      EmptyMask(0);
    } else {
      var rest := prios[1..];
      assert DistinctPriorities(rest) by {
        forall i, j | 0 <= i < j < |rest| ensures rest[i] != rest[j] {
          assert rest[i] == prios[i + 1] && rest[j] == prios[j + 1];
        }
      }
      assert forall i :: 0 <= i < |rest| ==> 0 <= rest[i] < PriorityCount by {
        forall i | 0 <= i < |rest| ensures 0 <= rest[i] < PriorityCount {
          assert rest[i] == prios[i + 1];
        }
      }
      EnableVectorIsMask(rest);
      MaskOfFirstPriority(prios);
    }
  }

  /** The first of distinct priorities adds its own bit to the mask of the
      rest. */
  lemma MaskOfFirstPriority(prios: seq<int>)
    requires |prios| > 0
    requires forall i :: 0 <= i < |prios| ==> 0 <= prios[i] < PriorityCount
    requires DistinctPriorities(prios)
    ensures MaskFrom(PrioritySet(prios), 0) == MaskFrom(PrioritySet(prios[1..]), 0) + Pow2(prios[0])
  {
    var rest := prios[1..];
    var t := PrioritySet(rest);
    assert prios[0] !in t by {
      forall i | 0 <= i < |rest| ensures rest[i] != prios[0] {
        assert rest[i] == prios[i + 1];
      }
    }
    assert PrioritySet(prios) == t + {prios[0]} by {
      assert prios == [prios[0]] + rest;
    }
    MaskOfInsert(PrioritySet(prios), t, prios[0]);
  }

  lemma MaskOfInsert(s: set<int>, t: set<int>, p: int)
    requires 0 <= p < MaskWidth && p !in t && s == t + {p}
    ensures MaskFrom(s, 0) == MaskFrom(t, 0) + Pow2(p)
  {
    MaskFromInsert(t, p, 0);
  }

  lemma {:induction false} EmptyMask(k: nat)
    requires k <= MaskWidth
    ensures MaskFrom({}, k) == 0
    decreases MaskWidth - k
  {
    if k < MaskWidth {
      EmptyMask(k + 1);
    }
  }

  /** For distinct priorities in 0..7 the vector has bit `i` set exactly
      when `i` is listed, and fits in eight bits. */
  lemma EnableVectorBits(prios: seq<int>, i: nat)
    requires forall k :: 0 <= k < |prios| ==> 0 <= prios[k] < PriorityCount
    requires DistinctPriorities(prios)
    requires i < PriorityCount
    ensures BitSet(EnableVector(prios), i) <==> i in prios
    ensures EnableVector(prios) < 256
  {
    EnableVectorIsMask(prios);
    MaskFromBits(PrioritySet(prios), 0, i);
    MaskFromBound(PrioritySet(prios), 0);
    assert Pow2(8) == 256;
  }

  /** A repeated priority is counted twice, so the sum carries into the
      next bit: `[3, 3]` enables priority 4 and not priority 3. */
  lemma RepeatedPriorityCarries()
    ensures EnableVector([3, 3]) == Pow2(4)
    ensures BitSet(EnableVector([3, 3]), 4) && !BitSet(EnableVector([3, 3]), 3)
  {
    assert EnableVector([3, 3]) == Pow2(3) + EnableVector([3]);
    assert [3, 3][1..] == [3];
    assert EnableVector([3]) == Pow2(3);
    Pow2Bits(4, 4);
    Pow2Bits(4, 3);
  }

  /** The pause time of class `i`: the maximum for a listed priority, zero
      otherwise. */
  function QueuePause(prios: seq<int>, i: int): (quanta: int) {
    if i in prios then MaxPauseQuanta else 0
  }

  /** `set_pfc_fields`. */
  function PfcFields(prios: seq<int>): (f: Fields)
    requires forall i :: 0 <= i < |prios| ==> prios[i] >= 0
    ensures f.opcode == PfcOpcode
    ensures f.enableVector == EnableVector(prios)
    ensures |f.queuePause| == PriorityCount
    ensures forall i :: 0 <= i < PriorityCount ==> f.queuePause[i] == (if i in prios then MaxPauseQuanta else 0)
  {
    Fields(PfcOpcode, EnableVector(prios),
           seq(PriorityCount, i requires 0 <= i < PriorityCount => QueuePause(prios, i)))
  }

  /** `set_global_pause_fields`: does not look at any priority list. */
  function GlobalPauseFields(): (f: Fields)
    ensures |f.queuePause| == PriorityCount
  {
    Fields(GlobalPauseOpcode, MaxPauseQuanta, seq(PriorityCount, i => 0))
  }

  /** The two parts of a PFC frame agree: class `i` is enabled in the
      vector exactly when its pause time is the maximum, and disabled
      exactly when its pause time is zero. */
  lemma PfcFieldsConsistent(prios: seq<int>, i: nat)
    requires forall k :: 0 <= k < |prios| ==> 0 <= prios[k] < PriorityCount
    requires DistinctPriorities(prios)
    requires i < PriorityCount
    ensures BitSet(PfcFields(prios).enableVector, i) <==> PfcFields(prios).queuePause[i] == MaxPauseQuanta
    ensures !BitSet(PfcFields(prios).enableVector, i) <==> PfcFields(prios).queuePause[i] == 0
    ensures PfcFields(prios).enableVector < 256
  {
    EnableVectorBits(prios, i);
  }

  /** The frame that pauses priorities 3 and 4: vector `0b11000`, maximum
      pause time on classes 3 and 4 only. */
  lemma PfcFieldsForThreeAndFour()
    ensures PfcFields([3, 4]) == Fields(0x0101, 0x18, [0, 0, 0, 0xFFFF, 0xFFFF, 0, 0, 0])
  {
    assert [3, 4][1..] == [4];
    assert EnableVector([3, 4]) == Pow2(3) + Pow2(4);
  }

  /** Global PAUSE: opcode 1, the maximum pause time in the vector field,
      and every class field zero. */
  lemma GlobalPauseValues(i: nat)
    requires i < PriorityCount
    ensures GlobalPauseFields().opcode == 1
    ensures GlobalPauseFields().enableVector == 0xFFFF
    ensures GlobalPauseFields().queuePause[i] == 0
  {
  }
}

=== FILE: PfcPauseLossless.dfy ===
/** The traffic-generator PFC test (`test_pfc_pause_lossless`): which
    experiments it runs over the testbed's ports, what traffic each
    experiment configures, and how it judges the per-stream counters. */
module PfcPauseLossless {
  import opened Options
  import opened Decimal
  import opened Text
  import opened Bits
  import opened PauseFields
  import opened TrafficItems
  import opened IxiaNeighbors
  import opened IxiaPorts
  import opened Ring

  const DataPacketSize: int := 1024
  const LosslessPriorities: seq<int> := [3, 4]
  const LossyPriorities: seq<int> := [0, 1]
  const AllPriorities: seq<int> := LosslessPriorities + LossyPriorities
  const ExperimentSeconds: int := 2
  const DataRatePercent: int := 50
  const DataStartDelaySecs: int := 1

  const TestLabel := "Test Data Traffic"
  const BackgroundLabel := "Background Data Traffic"
  const PauseLabel := "PFC Pause Storm"

  // ---------------------------------------------------------------------
  // Outcome evaluation

  /** Which expectation applies to a row of the flow statistics. */
  datatype StreamKind = TestStream | PauseStream | BackgroundStream

  /** One row of the flow statistics: the traffic item's label and its
      transmitted and received frame counts. */
  datatype FlowRow = FlowRow(trafficItem: string, txFrames: int, rxFrames: int)

  /** The traffic item's name is tested for `Test` first, then for `PFC`; anything else is
      background traffic. */
  function Classify(itemName: string): (k: StreamKind)
    ensures k == TestStream <==> exists i :: OccursAt(itemName, "Test", i)
    ensures k == PauseStream <==>
      (forall i :: !OccursAt(itemName, "Test", i)) && exists i :: OccursAt(itemName, "PFC", i)
  {
    if Contains(itemName, "Test") then TestStream
    else if Contains(itemName, "PFC") then PauseStream
    else BackgroundStream
  }

  /** Frames were sent and every one arrived. */
  predicate Forwarded(row: FlowRow) {
    row.txFrames > 0 && row.txFrames == row.rxFrames
  }

  /** Frames were sent and none arrived. */
  predicate Blocked(row: FlowRow) {
    row.txFrames > 0 && row.rxFrames == 0
  }

  /** The verdict on one row: test traffic is blocked when the experiment
      pauses it and forwarded otherwise, pause frames are never forwarded,
      background traffic is always forwarded. */
  function RowPasses(row: FlowRow, paused: bool): (ok: bool)
    ensures Classify(row.trafficItem) == TestStream ==> (ok <==> if paused then Blocked(row) else Forwarded(row))
    ensures Classify(row.trafficItem) == PauseStream ==> (ok <==> Blocked(row))
    ensures Classify(row.trafficItem) == BackgroundStream ==> (ok <==> Forwarded(row))
  {
    match Classify(row.trafficItem)
    case TestStream => if paused then row.txFrames > 0 && row.rxFrames == 0
                       else row.txFrames > 0 && row.txFrames == row.rxFrames
    case PauseStream => row.txFrames > 0 && row.rxFrames == 0
    case BackgroundStream => row.txFrames > 0 && row.txFrames == row.rxFrames
  }

  /** Every rule needs frames to have been sent, and the paused and unpaused
      rules for test traffic never both hold: a test row that passes in one
      scenario fails in the other. */
  lemma RowVerdictExclusive(row: FlowRow)
    ensures RowPasses(row, true) || RowPasses(row, false) ==> row.txFrames > 0
    ensures Classify(row.trafficItem) == TestStream ==> !(RowPasses(row, true) && RowPasses(row, false))
    ensures Classify(row.trafficItem) != TestStream ==> RowPasses(row, true) == RowPasses(row, false)
  {
  }

  /** Every row passes: what the experiment asserts. */
  predicate ExperimentPasses(rows: seq<FlowRow>, paused: bool) {
    forall j :: 0 <= j < |rows| ==> RowPasses(rows[j], paused)
  }

  /** The rows are checked in order and the first failing one ends the
      test: the index of that row, or `None` when every row passes. */
  method FirstFailingRow(rows: seq<FlowRow>, paused: bool) returns (failed: Option<nat>)
    ensures failed.None? <==> ExperimentPasses(rows, paused)
    ensures failed.Some? ==>
      && failed.value < |rows|
      && !RowPasses(rows[failed.value], paused)
      && forall j :: 0 <= j < failed.value ==> RowPasses(rows[j], paused)
  {
    var k := 0;
    while k < |rows|
      invariant 0 <= k <= |rows|
      invariant forall j :: 0 <= j < k ==> RowPasses(rows[j], paused)
    {
      if !RowPasses(rows[k], paused) {
        return Some(k);
      }
      k := k + 1;
    }
    return None;
  }

  /** The three labels the experiment gives its traffic items fall into the
      three kinds they are meant for. */
  lemma LabelsClassifyAsIntended()
    ensures Classify(TestLabel) == TestStream
    ensures Classify(BackgroundLabel) == BackgroundStream
    ensures Classify(PauseLabel) == PauseStream
  {
    TestLabelIsTest();
    PauseLabelIsPause();
    BackgroundLabelIsBackground();
  }

  lemma TestLabelIsTest()
    ensures Classify(TestLabel) == TestStream
  {
    assert OccursAt(TestLabel, "Test", 0);
  }

  lemma PauseLabelIsPause()
    ensures Classify(PauseLabel) == PauseStream
  {
    assert OccursAt(PauseLabel, "PFC", 0);
    NoOccurrenceWithoutChar(PauseLabel, "Test", 'T');
  }

  lemma BackgroundLabelIsBackground()
    ensures Classify(BackgroundLabel) == BackgroundStream
  {
    NoOccurrenceWithoutChar(BackgroundLabel, "Test", 'e');
    NoOccurrenceWithoutChar(BackgroundLabel, "PFC", 'P');
  }

  // ---------------------------------------------------------------------
  // Experiment planning

  /** Where the first `x` of `s` is: `|s|` when there is none. */
  function FirstIndex(s: seq<int>, x: int): (i: nat)
    ensures i <= |s|
    ensures x !in s[..i]
    ensures i < |s| ==> s[i] == x
  {
    if |s| == 0 then 0
    else if s[0] == x then 0
    else
      var i := FirstIndex(s[1..], x);
      assert s[..i + 1] == [s[0]] + s[1..][..i];
      i + 1
  }

  /** Python's `list.remove(x)`: drops the first occurrence of `x`; `None`
      stands for the `ValueError` raised when there is none. */
  function RemoveFirst(s: seq<int>, x: int): (r: Option<seq<int>>)
    ensures r.Some? <==> x in s
    ensures r.Some? ==> |r.value| == |s| - 1
    ensures r.Some? ==> multiset(r.value) == multiset(s) - multiset{x}
    ensures r.Some? ==> exists i :: 0 <= i < |s| && s[i] == x && x !in s[..i] && r.value == s[..i] + s[i + 1..]
  {
    var i := FirstIndex(s, x);
    if i == |s| then
      assert s[..i] == s;
      None
    else
      assert s == s[..i] + [x] + s[i + 1..];
      Some(s[..i] + s[i + 1..])
  }

  /** The background priorities of the experiment testing `prio`. */
  function BackgroundPriorities(prio: int): (bg: Option<seq<int>>) {
    RemoveFirst(AllPriorities, prio)
  }

  /** For each tested lossless priority the background traffic uses the
      three other priorities. */
  lemma BackgroundPrioritiesExcludeTested(prio: int)
    requires prio in LosslessPriorities
    ensures BackgroundPriorities(prio).Some?
    ensures |BackgroundPriorities(prio).value| == 3
    ensures prio !in BackgroundPriorities(prio).value
    ensures forall p :: p in BackgroundPriorities(prio).value ==> ValidPriority(p)
  {
    var bg := if prio == 3 then [4, 0, 1] else [3, 0, 1];
    assert |bg| == 3 && prio !in bg;
    assert forall p :: p in bg ==> ValidPriority(p);
    BackgroundPrioritiesValue(prio);
  }

  lemma BackgroundPrioritiesValue(prio: int)
    requires prio in LosslessPriorities
    ensures BackgroundPriorities(prio) == Some(if prio == 3 then [4, 0, 1] else [3, 0, 1])
  {
    var all := AllPriorities;
    assert all == [3, 4, 0, 1];
    if prio == 3 {
      assert FirstIndex(all, 3) == 0;
      assert all[..0] + all[1..] == [4, 0, 1];
    } else {
      assert FirstIndex(all[1..], 4) == 0;
      assert FirstIndex(all, 4) == 1;
      assert all[..1] + all[2..] == [3, 0, 1];
    }
  }

  /** One experiment: which ports receive and transmit, the ports' speed,
      the tested and background priorities, and the run time. */
  datatype Experiment = Experiment(
    rxId: nat,
    txId: nat,
    portBwMbps: int,
    testPrios: seq<int>,
    bgPrios: seq<int>,
    durationSecs: int,
    paused: bool)

  /** The experiments the loop attempts when every experiment passes, in
      order, and whether every ring pair had equal speeds (otherwise the
      speed assertion stops the loop at the first pair that differs). */
  datatype Plan = Plan(runs: seq<Experiment>, completed: bool)

  /** The first receiving port, at or after `i`, whose speed differs from
      its transmitting partner's; `|speeds|` when there is none. */
  function FirstSpeedMismatch(speeds: seq<int>, i: nat): (k: nat)
    requires i <= |speeds|
    ensures i <= k <= |speeds|
    ensures forall j :: i <= j < k ==> speeds[j] == speeds[RingPeer(j, |speeds|)]
    ensures k < |speeds| ==> speeds[k] != speeds[RingPeer(k, |speeds|)]
    decreases |speeds| - i
  {
    if i == |speeds| then i
    else if speeds[i] != speeds[RingPeer(i, |speeds|)] then i
    else FirstSpeedMismatch(speeds, i + 1)
  }

  /** The experiment of the pass testing `prio` at loop index `i`: port `i`
      receives, its ring partner transmits, and the partner's speed is the
      port speed. */
  function ExperimentFor(speeds: seq<int>, prio: int, i: nat): (e: Experiment)
    requires i < |speeds|
    requires prio in LosslessPriorities
    ensures e.rxId == i && e.txId == RingPeer(i, |speeds|)
    ensures e.portBwMbps == speeds[e.txId]
    ensures e.testPrios == [prio] && Some(e.bgPrios) == BackgroundPriorities(prio)
  {
    BackgroundPrioritiesExcludeTested(prio);
    var tx := RingPeer(i, |speeds|);
    Experiment(i, tx, speeds[tx], [prio], BackgroundPriorities(prio).value, ExperimentSeconds, true)
  }

  /** The experiments the loop attempts, for the ports in list order, when
      every experiment passes: `None` when there are fewer than two ports
      (the test's first assertion). Each lossless priority is tested on
      every ring pair; the speed assertion stops the loop at the first pair
      whose speeds differ. A failing experiment also ends the test; the
      plan does not model that (see `FirstFailingRow`). */
  function LosslessPlan(speeds: seq<int>): (p: Option<Plan>)
    ensures p.None? <==> |speeds| < 2
    ensures p.Some? ==> (p.value.completed <==> forall j :: 0 <= j < |speeds| ==> speeds[j] == speeds[RingPeer(j, |speeds|)])
    ensures p.Some? && p.value.completed ==> |p.value.runs| == 2 * |speeds|
    ensures p.Some? && !p.value.completed ==> |p.value.runs| == FirstSpeedMismatch(speeds, 0) < |speeds|
    ensures p.Some? ==> forall r :: 0 <= r < |p.value.runs| ==>
      var i := if r < |speeds| then r else r - |speeds|;
      && p.value.runs[r].rxId == i
      && p.value.runs[r].txId == RingPeer(i, |speeds|)
      && p.value.runs[r].testPrios == [if r < |speeds| then LosslessPriorities[0] else LosslessPriorities[1]]
      && p.value.runs[r] == ExperimentFor(speeds, if r < |speeds| then LosslessPriorities[0] else LosslessPriorities[1], i)
  {
    if |speeds| < 2 then None
    else
      var n := |speeds|;
      var k := FirstSpeedMismatch(speeds, 0);
      var first := seq(if k < n then k else n, i requires 0 <= i < (if k < n then k else n) =>
                         ExperimentFor(speeds, LosslessPriorities[0], i));
      if k < n then Some(Plan(first, false))
      else
        var second := seq(n, i requires 0 <= i < n => ExperimentFor(speeds, LosslessPriorities[1], i));
        Some(Plan(first + second, true))
  }

  /** Every planned experiment pairs two different ports of equal speed,
      runs at that speed, tests one lossless priority and keeps it out of
      the three background priorities. */
  lemma PlanRunsWellFormed(speeds: seq<int>, r: nat)
    requires LosslessPlan(speeds).Some?
    requires r < |LosslessPlan(speeds).value.runs|
    ensures var e := LosslessPlan(speeds).value.runs[r];
            && e.rxId < |speeds| && e.txId == RingPeer(e.rxId, |speeds|) && e.rxId != e.txId
            && e.portBwMbps == speeds[e.txId] == speeds[e.rxId]
            && |e.testPrios| == 1 && e.testPrios[0] in LosslessPriorities
            && |e.bgPrios| == 3 && e.testPrios[0] !in e.bgPrios
            && e.durationSecs == ExperimentSeconds && e.paused
  {
    var n := |speeds|;
    var k := FirstSpeedMismatch(speeds, 0);
    var prio := if r < n then LosslessPriorities[0] else LosslessPriorities[1];
    var i := if r < n then r else r - n;
    assert LosslessPlan(speeds).value.runs[r] == ExperimentFor(speeds, prio, i);
    ExperimentForWellFormed(speeds, prio, i);
  }

  lemma ExperimentForWellFormed(speeds: seq<int>, prio: int, i: nat)
    requires 2 <= |speeds| && i < |speeds|
    requires prio in LosslessPriorities
    ensures var e := ExperimentFor(speeds, prio, i);
            && e.rxId == i && e.txId == RingPeer(i, |speeds|)
            && e.rxId < |speeds| && e.txId < |speeds| && e.rxId != e.txId
            && e.portBwMbps == speeds[e.txId]
            && e.testPrios == [prio]
            && |e.bgPrios| == 3 && prio !in e.bgPrios
            && e.durationSecs == ExperimentSeconds && e.paused
  {
    BackgroundPrioritiesExcludeTested(prio);
  }

  // ---------------------------------------------------------------------
  // Traffic of one experiment

  /** The test stream: the tested priorities as DSCP values and as the PFC
      queue of the Ethernet header. */
  function TestTraffic(e: Experiment): (b: Built<Ipv4Item>) {
    BuildIpv4(TestLabel, DataPacketSize, None, WholeSeconds(e.durationSecs), DataRatePercent,
              DataStartDelaySecs, Some(e.testPrios), Some(e.testPrios), false)
  }

  /** The background stream: the background priorities as DSCP values. */
  function BackgroundTraffic(e: Experiment): (b: Built<Ipv4Item>) {
    BuildIpv4(BackgroundLabel, DataPacketSize, None, WholeSeconds(e.durationSecs), DataRatePercent,
              DataStartDelaySecs, Some(e.bgPrios), None, false)
  }

  /** The pause storm from the receiving port, sent at the storm rate of
      the port speed; `None` for a zero speed, whose rate raises
      `ZeroDivisionError`. */
  function PauseStorm(e: Experiment): (r: Option<Built<PauseItem>>)
    ensures r.Some? <==> e.portBwMbps != 0
  {
    if e.portBwMbps == 0 then None
    else Some(BuildPause(PauseLabel, PauseStormRate(e.portBwMbps), None, NoDuration, 0, false, Some(e.testPrios)))
  }

  /** Every planned experiment's two data streams are built: they run for
      the experiment's duration, with the start delay of `1` written as
      10**6 ns (one millisecond, not the second meant), and the test stream
      is marked with its priority's PFC queue. The test stream carries the
      tested priority as its DSCP value, the background stream the three
      background priorities. */
  lemma PlannedStreamsBuilt(speeds: seq<int>, r: nat)
    requires LosslessPlan(speeds).Some?
    requires r < |LosslessPlan(speeds).value.runs|
    ensures var e := LosslessPlan(speeds).value.runs[r];
            var test := TestTraffic(e);
            var bg := BackgroundTraffic(e);
            && test.Created? && bg.Created?
            && test.item.control == FixedDuration(ExperimentSeconds)
            && bg.item.control == FixedDuration(ExperimentSeconds)
            && test.item.startDelayNs == Some(1_000_000) && bg.item.startDelayNs == Some(1_000_000)
            && test.item.pfcQueues == Some(e.testPrios) && bg.item.pfcQueues.None?
            && test.item.dscps == Some(e.testPrios) && bg.item.dscps == Some(e.bgPrios)
  {
    PlanRunsWellFormed(speeds, r);
  }

  /** Every planned experiment on a port of non-zero speed gets its pause
      storm: it runs continuously from the start, renews each pause before
      it expires, and enables exactly the tested priority. */
  lemma PlannedStormBuilt(speeds: seq<int>, r: nat, i: nat)
    requires LosslessPlan(speeds).Some?
    requires r < |LosslessPlan(speeds).value.runs|
    requires i < PriorityCount
    ensures var e := LosslessPlan(speeds).value.runs[r];
            var storm := PauseStorm(e);
            e.portBwMbps != 0 ==>
              && storm.Some? && storm.value.Created?
              && storm.value.item.control == Continuous && storm.value.item.startDelayNs.None?
              && storm.value.item.rate.FramesPerSecond?
              && storm.value.item.rate.fps * PauseSecondsPerFrame(e.portBwMbps) == 1.1
              && (BitSet(storm.value.item.fields.enableVector, i) <==> i == e.testPrios[0])
              && (storm.value.item.fields.queuePause[i] == MaxPauseQuanta <==> i == e.testPrios[0])
  {
    PlanRunsWellFormed(speeds, r);
    var e := LosslessPlan(speeds).value.runs[r];
    if e.portBwMbps != 0 {
      StormOfOnePriority(e, i);
    }
  }

  /** The storm of an experiment testing one priority. */
  lemma StormOfOnePriority(e: Experiment, i: nat)
    requires e.portBwMbps != 0
    requires |e.testPrios| == 1 && ValidPriority(e.testPrios[0])
    requires i < PriorityCount
    ensures var storm := PauseStorm(e);
            && storm.Some? && storm.value.Created?
            && storm.value.item.control == Continuous && storm.value.item.startDelayNs.None?
            && storm.value.item.rate.FramesPerSecond?
            && storm.value.item.rate.fps * PauseSecondsPerFrame(e.portBwMbps) == 1.1
            && (BitSet(storm.value.item.fields.enableVector, i) <==> i == e.testPrios[0])
            && (storm.value.item.fields.queuePause[i] == MaxPauseQuanta <==> i == e.testPrios[0])
  {
    assert e.testPrios == [e.testPrios[0]];
    PfcFieldsConsistent(e.testPrios, i);
  }

  // ---------------------------------------------------------------------
  // Port list and pause rate

  /** The port-list entry for one DUT interface; `None` when the graph's
      speed is not an integer literal, whitespace around it aside
      (`int()` raises). */
  function PortListEntry(intf: string, conn: DeviceConn, chassis: map<string, string>): (r: Option<PortSpec>)
    requires intf in conn
    ensures r.Some? <==> IntOf(conn[intf].speed).Some?
    ensures r.Some? ==>
      && r.value.ip == NeighMgmtIp(intf, conn, chassis)
      && r.value.card == NeighCard(intf, conn)
      && r.value.port == NeighPort(intf, conn)
      && Some(r.value.speedMbps) == IntOf(conn[intf].speed)
  {
    match IntOf(conn[intf].speed)
    case None => None
    case Some(speed) => Some(PortSpec(NeighMgmtIp(intf, conn, chassis), NeighCard(intf, conn), NeighPort(intf, conn), speed))
  }

  /** The port list in the order the interfaces are visited. */
  function PortList(order: seq<string>, conn: DeviceConn, chassis: map<string, string>): (r: Option<seq<PortSpec>>)
    requires forall k :: 0 <= k < |order| ==> order[k] in conn
    ensures r.Some? <==> forall k :: 0 <= k < |order| ==> IntOf(conn[order[k]].speed).Some?
    ensures r.Some? ==> |r.value| == |order|
    ensures r.Some? ==> forall k :: 0 <= k < |order| ==> Some(r.value[k]) == PortListEntry(order[k], conn, chassis)
  {
    if |order| == 0 then Some([])
    else
      match PortListEntry(order[0], conn, chassis)
      case None => None
      case Some(entry) =>
        match PortList(order[1..], conn, chassis)
        case None => None
        case Some(rest) => Some([entry] + rest)
  }

  /** A speed written with whitespace around it, as `int()` allows, still
      gives an entry with that speed. */
  lemma PortListEntryPaddedSpeed(intf: string, conn: DeviceConn, chassis: map<string, string>,
                                 pre: string, mbps: int, post: string)
    requires intf in conn
    requires AllSpace(pre) && AllSpace(post)
    requires conn[intf].speed == pre + IntToString(mbps) + post
    ensures PortListEntry(intf, conn, chassis).Some?
    ensures PortListEntry(intf, conn, chassis).value.speedMbps == mbps
  {
    IntOfPadded(pre, mbps, post);
  }

  /** `order` visits every interface of the connection graph once, as
      `for intf in device_conn` does. */
  predicate IsVisitOrder(order: seq<string>, conn: DeviceConn) {
    && |order| == |conn|
    && (forall k :: 0 <= k < |order| ==> order[k] in conn)
    && (forall intf :: intf in conn ==> intf in order)
  }

  /** The speeds the experiment loop reads from the port list. */
  function PortSpeeds(ports: seq<PortSpec>): (speeds: seq<int>)
    ensures |speeds| == |ports|
    ensures forall k :: 0 <= k < |ports| ==> speeds[k] == ports[k].speedMbps
  {
    seq(|ports|, k requires 0 <= k < |ports| => ports[k].speedMbps)
  }

  /** The test's plan over its own port list: the two-port assertion is on
      the number of interfaces in the graph, and each experiment runs at
      the speed the graph gives its receiving and its transmitting
      interface. */
  lemma PlanOverPortList(order: seq<string>, conn: DeviceConn, chassis: map<string, string>, r: nat)
    requires IsVisitOrder(order, conn)
    requires PortList(order, conn, chassis).Some?
    ensures var speeds := PortSpeeds(PortList(order, conn, chassis).value);
            && (LosslessPlan(speeds).None? <==> |conn| < 2)
            && (LosslessPlan(speeds).Some? && r < |LosslessPlan(speeds).value.runs| ==>
                  var e := LosslessPlan(speeds).value.runs[r];
                  && e.rxId < |order| && e.txId < |order|
                  && Some(e.portBwMbps) == IntOf(conn[order[e.txId]].speed)
                  && Some(e.portBwMbps) == IntOf(conn[order[e.rxId]].speed))
  {
    var ports := PortList(order, conn, chassis).value;
    var speeds := PortSpeeds(ports);
    if LosslessPlan(speeds).Some? && r < |LosslessPlan(speeds).value.runs| {
      PlanRunsWellFormed(speeds, r);
      var e := LosslessPlan(speeds).value.runs[r];
      assert Some(ports[e.txId]) == PortListEntry(order[e.txId], conn, chassis);
      assert Some(ports[e.rxId]) == PortListEntry(order[e.rxId], conn, chassis);
    }
  }

  /** The longest pause one frame asks for, in seconds: 65535 quanta of 512
      bit times at the port speed. */
  function PauseSecondsPerFrame(portBwMbps: int): (secs: real)
    requires portBwMbps != 0
    ensures secs * (portBwMbps * 1_000_000) as real == (0xFFFF * 512) as real
    ensures portBwMbps > 0 ==> secs > 0.0
  {
    (0xFFFF * 64 * 8) as real / ((portBwMbps * 1_000_000) as real)
  }

  /** The storm's frame rate: 1.1 frames per longest pause, so every pause
      is renewed before it expires. */
  function PauseStormRate(portBwMbps: int): (fps: real)
    requires portBwMbps != 0
    ensures fps * PauseSecondsPerFrame(portBwMbps) == 1.1
  {
    1.1 / PauseSecondsPerFrame(portBwMbps)
  }
}

=== FILE: QosPfcPause.dfy ===
/** The fanout-switch PFC test (`tests/qos/test_pfc_pause.py`): how it
    pairs the PTF interfaces, which pause generator it starts, how it reads
    the PTF report, which DSCP values it tests, and how it judges the
    per-interface pass counts. */
module QosPfcPause {
  import opened Options
  import opened Decimal
  import opened Text
  import opened Bits
  import opened Ring

  /** Frames each pause-generator run is asked to send. */
  const PfcPacketCount: int := 1000000000
  /** The longest pause time, which the PFC case asks the generator for. */
  const DefaultPauseTime: int := 65535
  /** The most interfaces one run of the PTF test pauses. */
  const MaxTestIntfsCount: int := 4
  /** The share of PTF iterations that must pass. */
  const PassRatioThreshold: real := 0.75
  /** DSCP values are six bits. */
  const DscpCount: int := 64

  // ---------------------------------------------------------------------
  // Interface pairing

  /** How many interfaces one run tests: `min(max_test_intfs_count, n)`,
      and none when that is negative (an empty `range`). */
  function IterationCount(maxCount: int, n: nat): (c: nat)
    ensures c <= n
    ensures c <= maxCount || c == 0
    ensures c == n || c == maxCount || (c == 0 && maxCount < 0)
  {
    if maxCount < n then (if maxCount < 0 then 0 else maxCount) else n
  }

  /** The DUT interface paused in iteration `i`: the one facing the
      destination PTF interface `(i + 1) % n`. */
  function PausedIntf(dutIntfs: seq<string>, i: nat): (intf: string)
    requires i < |dutIntfs|
  {
    dutIntfs[RingPeer(i, |dutIntfs|)]
  }

  // ---------------------------------------------------------------------
  // Pause generator

  /** The pause-frame generator started on the fanout: global PAUSE (`-g`),
      or PFC with a priority bitmap (`-p`); both with the given pause time
      and frame count. */
  datatype PauseGenerator =
    | GlobalPauseStorm(pauseTime: int, count: int)
    | PfcStorm(priorityMask: nat, pauseTime: int, count: int)

  /** The generator for one iteration: in PFC mode the bitmap is
      `2 ** pause_prio`, which selects exactly the paused priority. */
  function PauseGeneratorFor(pfcPause: bool, pausePrio: nat, pauseTime: int): (g: PauseGenerator)
    ensures g.PfcStorm? <==> pfcPause
    ensures g.pauseTime == pauseTime && g.count == PfcPacketCount
    ensures g.PfcStorm? ==> forall i: nat :: BitSet(g.priorityMask, i) <==> i == pausePrio
  {
    if pfcPause then
      assert forall i: nat :: BitSet(Pow2(pausePrio), i) <==> i == pausePrio by {
        forall i: nat ensures BitSet(Pow2(pausePrio), i) <==> i == pausePrio {
          Pow2Bits(pausePrio, i);
        }
      }
      PfcStorm(Pow2(pausePrio), pauseTime, PfcPacketCount)
    else
      GlobalPauseStorm(pauseTime, PfcPacketCount)
  }

  /** The storm started in one iteration: none unless pause frames are to
      be sent (`test_no_pfc` sends none). */
  function StormFor(sendPause: bool, pfcPause: bool, pausePrio: nat, pauseTime: int): (g: Option<PauseGenerator>)
    ensures g.Some? <==> sendPause
    ensures g.Some? ==> g.value == PauseGeneratorFor(pfcPause, pausePrio, pauseTime)
  {
    if sendPause then Some(PauseGeneratorFor(pfcPause, pausePrio, pauseTime)) else None
  }

  /** The settings `test_pfc_pause` runs each case with: the PFC storm
      pauses only the tested priority for the longest pause time, and at
      most four interfaces (all of them when there are fewer) are tested. */
  lemma PfcCaseSettings(pausePrio: nat, n: nat)
    ensures var g := StormFor(true, true, pausePrio, DefaultPauseTime);
            && g.Some? && g.value.PfcStorm?
            && (forall i: nat :: BitSet(g.value.priorityMask, i) <==> i == pausePrio)
            && g.value.pauseTime == 65535 && g.value.count == 1000000000
    ensures IterationCount(MaxTestIntfsCount, n) == if n < 4 then n else 4
  {
  }

  // ---------------------------------------------------------------------
  // PTF report

  /** The report line PTF prints: `Passes: <a> / <b>`. */
  function PtfReport(passed: int, total: int): (line: string) {
    JoinSpaced(["Passes:", IntToString(passed), "/", IntToString(total)])
  }

  /** The PTF output read as `[passed, total]`: exactly four words give the
      second and fourth as integers; any other word count gives `[0, 0]`;
      `None` is the `ValueError` raised when those words are not integers.
      The first and third words are not looked at. */
  function ParsePtfOutput(stdout: string): (r: Option<seq<int>>)
    ensures |Words(stdout)| != 4 ==> r == Some([0, 0])
    ensures |Words(stdout)| == 4 ==>
      (r.Some? <==> IsIntLiteral(Words(stdout)[1]) && IsIntLiteral(Words(stdout)[3]))
    ensures r.Some? ==> |r.value| == 2
    ensures |Words(stdout)| == 4 && r.Some? ==>
      r.value == [ParseInt(Words(stdout)[1]).value, ParseInt(Words(stdout)[3]).value]
  {
    var words := Words(stdout);
    if |words| != 4 then Some([0, 0])
    else
      match (ParseInt(words[1]), ParseInt(words[3]))
      case (Some(passed), Some(total)) => Some([passed, total])
      case _ => None
  }


  /** Reading a report back gives the two counts it was written from. */
  lemma ParsePtfReport(passed: int, total: int)
    ensures ParsePtfOutput(PtfReport(passed, total)) == Some([passed, total])
  {
    var ws := ["Passes:", IntToString(passed), "/", IntToString(total)];
    IntToStringIsWord(passed);
    IntToStringIsWord(total);
    assert IsWord(ws[0]) && IsWord(ws[2]);
    WordsOfJoinSpaced(ws);
    ParseIntOfIntToString(passed);
    ParseIntOfIntToString(total);
  }

  // ---------------------------------------------------------------------
  // One run on a T0 testbed

  /** What the environment decides in one iteration: whether the DUT's MAC
      table came out right (otherwise the iteration is skipped) and what
      PTF printed. */
  datatype Iteration = Iteration(macTableOk: bool, ptfStdout: string)

  /** Iteration `j` of the first `upto` is the last one that tested its
      paused interface. */
  predicate LastTestOf(dutIntfs: seq<string>, io: seq<Iteration>, upto: nat, j: nat)
    requires upto <= |io| && upto <= |dutIntfs|
  {
    && j < upto
    && io[j].macTableOk
    && forall m :: j < m < upto && io[m].macTableOk ==> PausedIntf(dutIntfs, m) != PausedIntf(dutIntfs, j)
  }

  /** Iteration `j` tested its interface and its report did not parse. */
  predicate Crashed(io: seq<Iteration>, j: nat)
    requires j < |io|
  {
    io[j].macTableOk && ParsePtfOutput(io[j].ptfStdout).None?
  }

  /** The results after the first `upto` iterations: each iteration that is
      not skipped stores its parsed report under the paused interface,
      overwriting an earlier entry; `None` once a report fails to parse. */
  function ResultsUpTo(dutIntfs: seq<string>, io: seq<Iteration>, upto: nat): (r: Option<map<string, seq<int>>>)
    requires upto <= |io| && upto <= |dutIntfs|
    decreases upto
  {
    if upto == 0 then Some(map[])
    else
      var i := upto - 1;
      match ResultsUpTo(dutIntfs, io, i)
      case None => None
      case Some(m) =>
        if !io[i].macTableOk then Some(m)
        else
          match ParsePtfOutput(io[i].ptfStdout)
          case None => None
          case Some(v) => Some(m[PausedIntf(dutIntfs, i) := v])
  }

  /** The run aborts exactly when some tested iteration's report does not
      parse. */
  lemma {:induction false} ResultsUpToAborts(dutIntfs: seq<string>, io: seq<Iteration>, upto: nat)
    requires upto <= |io| && upto <= |dutIntfs|
    ensures ResultsUpTo(dutIntfs, io, upto).None? <==> exists j :: 0 <= j < upto && Crashed(io, j)
    decreases upto
  {
    if upto > 0 {
      var i := upto - 1;
      ResultsUpToAborts(dutIntfs, io, i);
      if Crashed(io, i) {
        assert ResultsUpTo(dutIntfs, io, upto).None?;
      } else if ResultsUpTo(dutIntfs, io, upto).None? {
        assert ResultsUpTo(dutIntfs, io, i).None?;
      }
    }
  }

  /** The interfaces with a result are exactly those paused by some tested
      iteration. */
  lemma {:induction false} ResultsUpToKeys(dutIntfs: seq<string>, io: seq<Iteration>, upto: nat)
    requires upto <= |io| && upto <= |dutIntfs|
    requires ResultsUpTo(dutIntfs, io, upto).Some?
    ensures forall key :: key in ResultsUpTo(dutIntfs, io, upto).value <==>
      exists j :: 0 <= j < upto && io[j].macTableOk && PausedIntf(dutIntfs, j) == key
    decreases upto
  {
    if upto > 0 {
      var i := upto - 1;
      ResultsUpToKeys(dutIntfs, io, i);
      var m := ResultsUpTo(dutIntfs, io, i).value;
      var r := ResultsUpTo(dutIntfs, io, upto).value;
      if io[i].macTableOk {
        assert r.Keys == m.Keys + {PausedIntf(dutIntfs, i)};
      } else {
        assert r == m;
      }
    }
  }

  /** Each stored result is the report of the last tested iteration that
      paused that interface: later iterations overwrite earlier ones. */
  lemma {:induction false} ResultsUpToValues(dutIntfs: seq<string>, io: seq<Iteration>, upto: nat)
    requires upto <= |io| && upto <= |dutIntfs|
    requires ResultsUpTo(dutIntfs, io, upto).Some?
    ensures forall key :: key in ResultsUpTo(dutIntfs, io, upto).value ==>
      exists j: nat :: LastTestOf(dutIntfs, io, upto, j) && PausedIntf(dutIntfs, j) == key
                       && Some(ResultsUpTo(dutIntfs, io, upto).value[key]) == ParsePtfOutput(io[j].ptfStdout)
    decreases upto
  {
    if upto > 0 {
      var i := upto - 1;
      ResultsUpToValues(dutIntfs, io, i);
      var m := ResultsUpTo(dutIntfs, io, i).value;
      var r := ResultsUpTo(dutIntfs, io, upto).value;
      forall key | key in r
        ensures exists j: nat :: LastTestOf(dutIntfs, io, upto, j) && PausedIntf(dutIntfs, j) == key
                                 && Some(r[key]) == ParsePtfOutput(io[j].ptfStdout)
      {
        if io[i].macTableOk && key == PausedIntf(dutIntfs, i) {
          assert LastTestOf(dutIntfs, io, upto, i);
        } else {
          assert key in m && r[key] == m[key];
          var j: nat :| LastTestOf(dutIntfs, io, i, j) && PausedIntf(dutIntfs, j) == key
                        && Some(m[key]) == ParsePtfOutput(io[j].ptfStdout);
          assert LastTestOf(dutIntfs, io, upto, j);
        }
      }
    }
  }

  /** `run_test_t0`: the results of every iteration up to the interface
      limit; it aborts exactly when a tested iteration's report does not
      parse, and only DUT interfaces get results. */
  function RunT0(dutIntfs: seq<string>, maxCount: int, io: seq<Iteration>): (r: Option<map<string, seq<int>>>)
    requires |io| >= IterationCount(maxCount, |dutIntfs|)
    ensures r.None? <==> exists j :: 0 <= j < IterationCount(maxCount, |dutIntfs|) && Crashed(io, j)
    ensures r.Some? ==> forall k :: k in r.value ==> k in dutIntfs
  {
    var count := IterationCount(maxCount, |dutIntfs|);
    ResultsUpToAborts(dutIntfs, io, count);
    var r := ResultsUpTo(dutIntfs, io, count);
    if r.Some? then
      ResultsUpToKeys(dutIntfs, io, count);
      r
    else
      r
  }

  /** When the limit covers every interface and no iteration is skipped,
      the ring pairing gives a result for every DUT interface. */
  lemma RunT0CoversAllInterfaces(dutIntfs: seq<string>, maxCount: int, io: seq<Iteration>)
    requires |io| >= IterationCount(maxCount, |dutIntfs|)
    requires IterationCount(maxCount, |dutIntfs|) == |dutIntfs|
    requires forall j :: 0 <= j < |dutIntfs| ==> io[j].macTableOk
    requires RunT0(dutIntfs, maxCount, io).Some?
    ensures RunT0(dutIntfs, maxCount, io).value.Keys == set k | k in dutIntfs
  {
    var n := |dutIntfs|;
    var r := RunT0(dutIntfs, maxCount, io).value;
    ResultsUpToKeys(dutIntfs, io, n);
    forall k | k in dutIntfs ensures k in r {
      var x :| 0 <= x < n && dutIntfs[x] == k;
      RingPeerCovers(x, n);
      var j :| 0 <= j < n && RingPeer(j, n) == x;
      assert PausedIntf(dutIntfs, j) == k;
    }
  }

  /** What `run_test` leads to: `Unsupported` for a topology other than
      T0 (the caller then fails), `Aborted` when a PTF report did not
      parse, otherwise the per-interface results. */
  datatype TestRun = Unsupported | Aborted | Completed(results: map<string, seq<int>>)

  /** `run_test`: only topologies whose name starts with `t0` are run. */
  function RunTest(topoName: string, dutIntfs: seq<string>, maxCount: int, io: seq<Iteration>): (run: TestRun)
    requires |io| >= IterationCount(maxCount, |dutIntfs|)
    ensures run.Unsupported? <==> !("t0" <= topoName)
    ensures run.Aborted? <==>
      ("t0" <= topoName && exists j :: 0 <= j < IterationCount(maxCount, |dutIntfs|) && Crashed(io, j))
    ensures run.Completed? ==> Some(run.results) == RunT0(dutIntfs, maxCount, io)
  {
    if "t0" <= topoName then
      match RunT0(dutIntfs, maxCount, io)
      case None => Aborted
      case Some(results) => Completed(results)
    else Unsupported
  }

  // ---------------------------------------------------------------------
  // Judging results

  /** The integer form of the pass-ratio check: `pass < 0.75 * total`
      exactly when `4 * pass < 3 * total`. */
  predicate FailsPassRatio(result: seq<int>) {
    |result| == 2 && result[1] != 0 && 4 * result[0] < 3 * result[1]
  }

  /** The interfaces whose results are flagged: results of the expected
      length with a non-zero total where fewer than 75% of the iterations
      passed. Malformed and empty results are skipped. */
  function CollectErrors(results: map<string, seq<int>>): (errors: map<string, seq<int>>)
    ensures errors.Keys <= results.Keys
    ensures forall k :: k in errors ==> errors[k] == results[k]
    ensures forall k :: k in results ==>
      (k in errors <==> |results[k]| == 2 && results[k][1] != 0
                        && (results[k][0] as real) < (results[k][1] as real) * PassRatioThreshold)
  {
    map k | k in results && FailsPassRatio(results[k]) :: results[k]
  }

  /** One case passes when the run completed and no interface was flagged. */
  function CasePasses(run: TestRun): (ok: bool)
    ensures ok <==> run.Completed? && forall k :: k in run.results ==> !FailsPassRatio(run.results[k])
  {
    run.Completed? && |CollectErrors(run.results)| == 0
  }

  /** An unrecognised PTF output is recorded as `[0, 0]` and is never
      flagged; a report `Passes: a / b` is flagged exactly when `b` is not
      zero and `a` is below three quarters of `b`. */
  lemma ParsedResultVerdict(stdout: string, passed: int, total: int)
    ensures |Words(stdout)| != 4 ==> !FailsPassRatio(ParsePtfOutput(stdout).value)
    ensures ParsePtfOutput(PtfReport(passed, total)).Some?
    ensures FailsPassRatio(ParsePtfOutput(PtfReport(passed, total)).value) <==>
      total != 0 && (passed as real) < (total as real) * PassRatioThreshold
  {
    ParsePtfReport(passed, total);
  }

  // ---------------------------------------------------------------------
  // DSCP selection

  /** Lossless priority to the DSCP values mapped to it. */
  type PrioDscpMap = map<int, seq<int>>

  /** Every DSCP value mapped to some lossless priority. */
  function LosslessDscps(m: PrioDscpMap): (s: set<int>)
    ensures forall d :: d in s <==> exists p :: p in m && d in m[p]
  {
    set p, d | p in m && d in m[p] :: d
  }

  /** `range(n)`. */
  function Range(n: nat): (s: seq<int>)
    ensures |s| == n
    ensures forall i :: 0 <= i < n ==> s[i] == i
  {
    seq(n, i => i)
  }

  /** `set(range(64)) - set(lossless_dscps)`. */
  function LossyDscps(m: PrioDscpMap): (s: set<int>)
    ensures s !! LosslessDscps(m)
    ensures forall d :: 0 <= d < DscpCount ==> d in s || d in LosslessDscps(m)
    ensures forall d :: d in s ==> 0 <= d < DscpCount
  {
    var all := Range(DscpCount);
    assert forall d :: 0 <= d < DscpCount ==> d in all by {
      forall d | 0 <= d < DscpCount ensures d in all {
        assert all[d] == d;
      }
    }
    (set d | d in all) - LosslessDscps(m)
  }

  /** The DSCP values of the lossless priorities other than `prio`. */
  function OtherLosslessDscps(m: PrioDscpMap, prio: int): (s: set<int>)
    requires prio in m
    ensures s <= LosslessDscps(m)
    ensures forall d :: d in s <==> d in LosslessDscps(m) && d !in m[prio]
  {
    LosslessDscps(m) - set d | d in m[prio]
  }

  /** `random.sample(lossy_dscps, k=2)`: two different lossy values. */
  predicate IsLossySample(m: PrioDscpMap, pick: seq<int>) {
    |pick| == 2 && pick[0] != pick[1] && pick[0] in LossyDscps(m) && pick[1] in LossyDscps(m)
  }

  /** The background DSCP values tried against priority `prio`: the other
      lossless values and two sampled lossy ones. None of them belongs to
      `prio`. */
  function BackgroundDscps(m: PrioDscpMap, prio: int, pick: seq<int>): (s: set<int>)
    requires prio in m
    requires IsLossySample(m, pick)
    ensures forall d :: d in s ==> d !in m[prio]
    ensures forall d :: d in s <==> d in OtherLosslessDscps(m, prio) || d in pick
  {
    assert forall d :: d in pick ==> d !in m[prio] by {
      forall d | d in pick ensures d !in m[prio] {
        assert d in LossyDscps(m);
      }
    }
    OtherLosslessDscps(m, prio) + set d | d in pick
  }

  /** The (test DSCP, background DSCP) pairs run for priority `prio`: the
      test value always belongs to `prio`, the background value never does. */
  function TestCases(m: PrioDscpMap, prio: int, pick: seq<int>): (cases: set<(int, int)>)
    requires prio in m
    requires IsLossySample(m, pick)
    ensures forall c :: c in cases ==> c.0 in m[prio] && c.1 !in m[prio] && c.0 != c.1
    ensures forall c :: c in cases <==> c.0 in m[prio] && c.1 in BackgroundDscps(m, prio, pick)
    ensures forall d, b :: d in m[prio] && b in BackgroundDscps(m, prio, pick) ==> (d, b) in cases
  {
    var bg := BackgroundDscps(m, prio, pick);
    var cases := set d, b | d in m[prio] && b in bg :: (d, b);
    assert forall c: (int, int) :: c.0 in m[prio] && c.1 in bg ==> c in cases by {
      forall c: (int, int) | c.0 in m[prio] && c.1 in bg
        ensures c in cases
      {
        var d, b := c.0, c.1;
        assert d in m[prio] && b in bg;
        assert (d, b) in cases;
        assert c == (d, b);
      }
    }
    cases
  }
}

=== FILE: Ring.dfy ===
/** The ring pairing both PFC tests use: port `i` of `n` is paired with
    port `(i + 1) % n`. */
module Ring {

  /** The partner of port `i` of `n`: the next port round the ring. */
  function RingPeer(i: nat, n: nat): (peer: nat)
    requires i < n
    ensures peer < n
    ensures peer == i + 1 || (i == n - 1 && peer == 0)
    ensures n >= 2 ==> peer != i
  {
    (i + 1) % n
  }

  /** Over one pass of the ring no two ports have the same partner. */
  lemma RingPeerInjective(i: nat, j: nat, n: nat)
    requires i < n && j < n
    requires RingPeer(i, n) == RingPeer(j, n)
    ensures i == j
  {
  }

  /** Over one pass of the ring every port is some port's partner. */
  lemma RingPeerCovers(k: nat, n: nat)
    requires k < n
    ensures exists i :: 0 <= i < n && RingPeer(i, n) == k
  {
    var i := if k == 0 then n - 1 else k - 1;
    assert RingPeer(i, n) == k;
  }
}

=== FILE: Text.dfy ===
/** String operations the Python code relies on: the `in` substring test,
    `str.split()` with no separator, `str.strip()`, `int()` of a text, and
    the leading digit run a regular expression `\d+` matches. */
module Text {
  import opened Options
  import opened Decimal

  /** `sub` occurs in `s` starting at index `i`. */
  predicate OccursAt(s: string, sub: string, i: int) {
    0 <= i && i + |sub| <= |s| && s[i..i + |sub|] == sub
  }

  /** Python's `sub in s` for strings. */
  function Contains(s: string, sub: string): (r: bool)
    ensures r <==> exists i :: OccursAt(s, sub, i)
    decreases |s|
  {
    if |s| < |sub| then
      assert forall i :: !OccursAt(s, sub, i);
      false
    else if s[..|sub|] == sub then
      assert OccursAt(s, sub, 0);
      true
    else
      var r := Contains(s[1..], sub);
      assert r ==> exists i :: OccursAt(s, sub, i) by {
        if r {
          var i :| OccursAt(s[1..], sub, i);
          assert s[1..][i..i + |sub|] == s[i + 1..i + 1 + |sub|];
          assert OccursAt(s, sub, i + 1);
        }
      }
      assert (exists i :: OccursAt(s, sub, i)) ==> r by {
        if exists i :: OccursAt(s, sub, i) {
          var i :| OccursAt(s, sub, i);
          assert i != 0;
          assert s[1..][i - 1..i - 1 + |sub|] == s[i..i + |sub|];
          assert OccursAt(s[1..], sub, i - 1);
        }
      }
      r
  }

  /** The length of the longest all-digit prefix of `s`: what a greedy `\d+`
      consumes (Python 2 byte strings: `\d` is `[0-9]`). */
  function DigitRun(s: string): (k: nat)
    ensures k <= |s|
    ensures AllDigits(s[..k])
    ensures k < |s| ==> !IsDigit(s[k])
  {
    if |s| == 0 || !IsDigit(s[0]) then 0
    else
      var k := 1 + DigitRun(s[1..]);
      assert s[..k] == [s[0]] + s[1..][..k - 1];
      k
  }

  /** A digit run is determined by where the digits stop. */
  lemma {:induction false} DigitRunOfPrefix(digits: string, s: string)
    requires AllDigits(digits) && digits <= s
    requires |digits| == |s| || !IsDigit(s[|digits|])
    ensures DigitRun(s) == |digits|
    decreases |digits|
  {
    if |digits| > 0 {
      assert IsDigit(s[0]);
      assert digits[1..] <= s[1..];
      assert AllDigits(digits[1..]);
      assert |digits[1..]| == |s[1..]| || !IsDigit(s[1..][|digits[1..]|]);
      DigitRunOfPrefix(digits[1..], s[1..]);
    }
  }

  /** The characters Python 2's `str.split()` treats as whitespace. */
  predicate IsSpace(c: char) {
    c == ' ' || c == '\t' || c == '\n' || c == '\r' || c as int == 11 || c as int == 12
  }

  predicate NoSpace(w: string) {
    forall i :: 0 <= i < |w| ==> !IsSpace(w[i])
  }

  /** A word `split()` can return: non-empty and free of whitespace. */
  predicate IsWord(w: string) {
    |w| > 0 && NoSpace(w)
  }

  /** The length of the leading run of non-whitespace characters. */
  function WordRun(s: string): (k: nat)
    ensures k <= |s|
    ensures NoSpace(s[..k])
    ensures k < |s| ==> IsSpace(s[k])
  {
    if |s| == 0 || IsSpace(s[0]) then 0
    else
      var k := 1 + WordRun(s[1..]);
      assert s[..k] == [s[0]] + s[1..][..k - 1];
      k
  }

  /** Python's `s.split()`: the maximal runs of non-whitespace, in order,
      with leading, trailing and repeated whitespace dropped. */
  function Words(s: string): (ws: seq<string>)
    ensures forall i :: 0 <= i < |ws| ==> IsWord(ws[i])
    decreases |s|
  {
    if |s| == 0 then []
    else if IsSpace(s[0]) then Words(s[1..])
    else
      var k := WordRun(s);
      [s[..k]] + Words(s[k..])
  }

  /** The words joined by single spaces, as `' '.join(ws)` writes them. */
  function JoinSpaced(ws: seq<string>): (s: string) {
    if |ws| == 0 then ""
    else if |ws| == 1 then ws[0]
    else ws[0] + " " + JoinSpaced(ws[1..])
  }

  lemma {:induction false} WordRunOfWord(w: string, rest: string)
    requires NoSpace(w)
    requires |rest| == 0 || IsSpace(rest[0])
    ensures WordRun(w + rest) == |w|
    decreases |w|
  {
    if |w| > 0 {
      assert (w + rest)[1..] == w[1..] + rest;
      WordRunOfWord(w[1..], rest);
    } else {
      assert w + rest == rest;
    }
  }

  /** `split()` undoes `' '.join` when every piece is a word. */
  lemma {:induction false} WordsOfJoinSpaced(ws: seq<string>)
    requires forall i :: 0 <= i < |ws| ==> IsWord(ws[i])
    ensures Words(JoinSpaced(ws)) == ws
    decreases |ws|
  {
    if |ws| == 1 {
      var s := ws[0];
      assert s == s + "";
      WordRunOfWord(s, "");
      assert s[WordRun(s)..] == "";
      assert s[..WordRun(s)] == s;
    } else if |ws| > 1 {
      var tail := JoinSpaced(ws[1..]);
      var s := ws[0] + (" " + tail);
      assert JoinSpaced(ws) == s;
      WordRunOfWord(ws[0], " " + tail);
      assert s[..|ws[0]|] == ws[0];
      assert s[|ws[0]|..] == " " + tail;
      assert (" " + tail)[1..] == tail;
      WordsOfJoinSpaced(ws[1..]);
    }
  }

  /** A rendered integer is one word: it holds no whitespace. */
  lemma IntToStringIsWord(i: int)
    ensures IsWord(IntToString(i))
  {
    var s := IntToString(i);
    forall k | 0 <= k < |s| ensures !IsSpace(s[k]) {
      if i < 0 && k > 0 {
        assert s[k] == s[1..][k - 1];
      }
    }
  }

  /** `sub` cannot occur in a text that lacks one of its characters. */
  lemma NoOccurrenceWithoutChar(s: string, sub: string, c: char)
    requires c in sub && c !in s
    ensures forall i :: !OccursAt(s, sub, i)
  {
    var j :| 0 <= j < |sub| && sub[j] == c;
    forall i ensures !OccursAt(s, sub, i) {
      if 0 <= i && i + |sub| <= |s| {
        assert s[i..i + |sub|][j] == s[i + j];
      }
    }
  }

  predicate AllSpace(s: string) {
    forall i :: 0 <= i < |s| ==> IsSpace(s[i])
  }

  /** The length of the leading run of whitespace. */
  function LeadingSpace(s: string): (k: nat)
    ensures k <= |s|
    ensures AllSpace(s[..k])
    ensures k < |s| ==> !IsSpace(s[k])
  {
    if |s| == 0 || !IsSpace(s[0]) then 0
    else
      var k := 1 + LeadingSpace(s[1..]);
      assert s[..k] == [s[0]] + s[1..][..k - 1];
      k
  }

  /** The length of the trailing run of whitespace. */
  function TrailingSpace(s: string): (k: nat)
    ensures k <= |s|
    ensures AllSpace(s[|s| - k..])
    ensures k < |s| ==> !IsSpace(s[|s| - k - 1])
  {
    if |s| == 0 || !IsSpace(s[|s| - 1]) then 0
    else
      var init := s[..|s| - 1];
      var k := 1 + TrailingSpace(init);
      assert s[|s| - k..] == init[|init| - (k - 1)..] + [s[|s| - 1]];
      k
  }

  /** Python's `s.strip()`: the middle of `s` once the whitespace at both
      ends is removed. */
  function Strip(s: string): (t: string)
    ensures exists a, b :: 0 <= a <= b <= |s| && t == s[a..b] && AllSpace(s[..a]) && AllSpace(s[b..])
    ensures |t| > 0 ==> !IsSpace(t[0]) && !IsSpace(t[|t| - 1])
  {
    var a := LeadingSpace(s);
    var rest := s[a..];
    var k := TrailingSpace(rest);
    var b := a + |rest| - k;
    assert s[b..] == rest[|rest| - k..];
    assert b > a ==> s[a..b][0] == s[a] && s[a..b][b - a - 1] == rest[|rest| - k - 1];
    s[a..b]
  }

  /** When `s[p..q]` neither starts nor ends with whitespace and only
      whitespace surrounds it, stripping `s` gives exactly `s[p..q]`. */
  lemma StripUnique(s: string, p: nat, q: nat)
    requires p < q <= |s|
    requires forall i :: 0 <= i < p ==> IsSpace(s[i])
    requires forall i :: q <= i < |s| ==> IsSpace(s[i])
    requires !IsSpace(s[p]) && !IsSpace(s[q - 1])
    ensures Strip(s) == s[p..q]
  {
    var t := Strip(s);
    var a, b :| 0 <= a <= b <= |s| && t == s[a..b] && AllSpace(s[..a]) && AllSpace(s[b..]);
    forall i | 0 <= i < a
      ensures IsSpace(s[i])
    {
      assert s[..a][i] == s[i];
    }
    forall i | b <= i < |s|
      ensures IsSpace(s[i])
    {
      assert s[b..][i - b] == s[i];
    }
    assert a <= p;
    assert b >= q;
    assert a == p;
    assert b == q;
  }

  /** Stripping removes exactly the whitespace padding around a text that
      neither starts nor ends with whitespace. */
  lemma StripPadded(pre: string, w: string, post: string)
    requires AllSpace(pre) && AllSpace(post)
    requires |w| > 0 && !IsSpace(w[0]) && !IsSpace(w[|w| - 1])
    ensures Strip(pre + w + post) == w
  {
    var s := pre + w + post;
    var p := |pre|;
    var q := |pre| + |w|;
    assert forall i :: 0 <= i < p ==> s[i] == pre[i];
    assert forall i :: q <= i < |s| ==> s[i] == post[i - q];
    assert s[p] == w[0] && s[q - 1] == w[|w| - 1];
    StripUnique(s, p, q);
    assert s[p..q] == w;
  }

  /** Python 2's `int(text)`: surrounding whitespace is ignored; `None`
      stands for the `ValueError` raised on anything but an integer
      literal. A result is the value of an integer literal that only
      whitespace surrounds. */
  function IntOf(text: string): (r: Option<int>)
    ensures r.Some? ==> exists a, b :: 0 <= a <= b <= |text| && AllSpace(text[..a]) && AllSpace(text[b..])
                                       && IsIntLiteral(text[a..b]) && r == ParseInt(text[a..b])
  {
    ParseInt(Strip(text))
  }

  /** Conversely, an integer literal surrounded only by whitespace is read
      as that literal. */
  lemma IntOfPaddedLiteral(text: string, a: nat, b: nat)
    requires a <= b <= |text|
    requires AllSpace(text[..a]) && AllSpace(text[b..])
    requires IsIntLiteral(text[a..b])
    ensures IntOf(text) == ParseInt(text[a..b])
  {
    var w := text[a..b];
    assert text == text[..a] + w + text[b..];
    assert !IsSpace(w[0]) && !IsSpace(w[|w| - 1]);
    StripPadded(text[..a], w, text[b..]);
  }

  /** A rendered integer with any whitespace around it reads back as that
      integer. */
  lemma IntOfPadded(pre: string, i: int, post: string)
    requires AllSpace(pre) && AllSpace(post)
    ensures IntOf(pre + IntToString(i) + post) == Some(i)
  {
    var w := IntToString(i);
    if i < 0 {
      assert w[1..] == NatToString(-i);
      assert w[|w| - 1] == w[1..][|w| - 2];
    }
    StripPadded(pre, w, post);
    ParseIntOfIntToString(i);
  }
}

=== FILE: TrafficItems.dfy ===
/** The three traffic-item builders (`create_raw_traffic`,
    `create_ipv4_traffic`, `create_pause_traffic`): the parameter checks they
    make and the values they write into the traffic item's configuration.
    The traffic item itself lives in the generator's session; here it is the
    record of what was written. */
module TrafficItems {
  import opened Options
  import opened PauseFields
  import Bits

  /** The `duration` argument as Python sees it: absent (`None`), a whole
      number, or a value of any other type (a float, a string, ...). */
  datatype DurationArg = NoDuration | WholeSeconds(seconds: int) | NotWholeSeconds

  /** `sys.maxint` of a 64-bit Python 2: a whole number above it is a
      `long`, which the `type(duration) != int` test rejects. */
  const PyMaxInt: int := 0x7FFF_FFFF_FFFF_FFFF

  /** The transmission-control mode of a traffic item. */
  datatype Control = FixedFrameCount(frames: int) | FixedDuration(seconds: int) | Continuous

  datatype FrameRate = PercentLineRate(percent: int) | FramesPerSecond(fps: real)

  /** Why a builder gave up. The first three make it print a message and
      return `None`; `PriorityListMissing` is the `TypeError` raised when a
      PFC frame is requested with no priority list. */
  datatype Rejection = PriorityOutOfRange | CountAndDuration | InvalidDuration | PriorityListMissing

  /** A builder's outcome. On rejection, `itemAdded` records whether a
      partly configured traffic item had already been added to the session
      (it is not removed). */
  datatype Built<T> = Created(item: T) | Rejected(reason: Rejection, itemAdded: bool)

  datatype Checked<T> = Accepted(value: T) | Refused(reason: Rejection)

  /** The transmission-bound rule every builder that takes a duration
      follows: at most one of packet count and duration, and a duration must
      be a positive whole number of seconds. */
  predicate BoundsAllowed(pktCount: Option<int>, duration: DurationArg) {
    || duration.NoDuration?
    || (pktCount.None? && duration.WholeSeconds? && 0 < duration.seconds <= PyMaxInt)
  }

  /** The transmission-control choice shared by the IPv4 and pause builders. */
  function TransmissionControl(pktCount: Option<int>, duration: DurationArg): (r: Checked<Control>)
    ensures r.Accepted? <==> BoundsAllowed(pktCount, duration)
    ensures r == Refused(CountAndDuration) <==> pktCount.Some? && !duration.NoDuration?
    ensures r.Refused? ==> r.reason in {CountAndDuration, InvalidDuration}
    ensures r.Accepted? ==>
      match r.value
      case FixedFrameCount(n) => pktCount == Some(n) && duration.NoDuration?
      case FixedDuration(d) => 0 < d <= PyMaxInt && pktCount.None? && duration == WholeSeconds(d)
      case Continuous => pktCount.None? && duration.NoDuration?
  {
    if pktCount.Some? && !duration.NoDuration? then Refused(CountAndDuration)
    else if pktCount.Some? then Accepted(FixedFrameCount(pktCount.value))
    else if !duration.NoDuration? then
      if !duration.WholeSeconds? || duration.seconds <= 0 || duration.seconds > PyMaxInt then Refused(InvalidDuration)
      else Accepted(FixedDuration(duration.seconds))
    else Accepted(Continuous)
  }

  /** The raw builder's rule: a fixed frame count only for a positive count. */
  function RawControl(pktCount: Option<int>): (c: Control)
    ensures c.FixedFrameCount? <==> pktCount.Some? && pktCount.value > 0
    ensures c.FixedFrameCount? ==> Some(c.frames) == pktCount
    ensures !c.FixedDuration?
  {
    if pktCount.Some? && pktCount.value > 0 then FixedFrameCount(pktCount.value) else Continuous
  }

  /** The raw builder and the other two agree on a positive or absent count;
      a zero or negative count is a zero/negative frame count for the IPv4
      and pause builders but continuous traffic for the raw builder. */
  lemma RawControlAgainstShared(pktCount: Option<int>)
    ensures pktCount.None? || pktCount.value > 0 ==>
      TransmissionControl(pktCount, NoDuration) == Accepted(RawControl(pktCount))
    ensures pktCount.Some? && pktCount.value <= 0 ==>
      && TransmissionControl(pktCount, NoDuration) == Accepted(FixedFrameCount(pktCount.value))
      && RawControl(pktCount) == Continuous
  {
  }

  const NsPerSecond: int := 1_000_000_000
  /** The factor the builders multiply the start delay (in seconds) by. */
  const StartDelayFactorAsWritten: int := 1_000_000

  /** The start delay as the builders write it: only for a positive delay,
      in nanoseconds, multiplied by `10**6`. */
  function StartDelayAsWritten(startDelaySecs: int): (r: Option<int>)
    ensures r.Some? <==> startDelaySecs > 0
    ensures r.Some? ==> r.value * 1000 == startDelaySecs * NsPerSecond
  {
    if startDelaySecs > 0 then Some(startDelaySecs * StartDelayFactorAsWritten) else None
  }

  /** With nanosecond units, the as-written factor makes a delay of `s`
      seconds last `s` milliseconds: one second becomes 10**6 ns. */
  lemma StartDelayAsWrittenIsMilliseconds(startDelaySecs: int)
    requires startDelaySecs > 0
    ensures StartDelayAsWritten(startDelaySecs).value * 1000 == startDelaySecs * NsPerSecond
    ensures StartDelayAsWritten(1) == Some(1_000_000)
  {
  }

  /** The start delay the builders' documentation promises: set only for a
      positive delay, and then exactly `startDelaySecs` seconds expressed in
      nanoseconds. */
  function StartDelayNs(startDelaySecs: int): (r: Option<int>)
    ensures r.Some? <==> startDelaySecs > 0
    ensures r.Some? ==> r.value % NsPerSecond == 0 && r.value / NsPerSecond == startDelaySecs
  {
    if startDelaySecs > 0 then Some(startDelaySecs * NsPerSecond) else None
  }

  /** The written delay is set in the same cases as the documented one and
      is a thousand times shorter. */
  lemma StartDelayAsWrittenAgainstIntended(startDelaySecs: int)
    ensures StartDelayAsWritten(startDelaySecs).Some? <==> StartDelayNs(startDelaySecs).Some?
    ensures StartDelayAsWritten(startDelaySecs).Some? ==>
      StartDelayAsWritten(startDelaySecs).value * 1000 == StartDelayNs(startDelaySecs).value
  {
  }

  /** A list argument that is only applied when given and non-empty. */
  function NonEmpty(l: Option<seq<int>>): (r: Option<seq<int>>)
    ensures r.Some? <==> l.Some? && |l.value| > 0
    ensures r.Some? ==> r == l
  {
    if l.Some? && |l.value| > 0 then l else None
  }

  /** What `create_raw_traffic` writes. */
  datatype RawItem = RawItem(
    name: string,
    rate: FrameRate,
    frameSize: int,
    control: Control,
    startDelayNs: Option<int>,
    srcMac: Option<string>,
    dstMac: Option<string>,
    srcIp: Option<string>,
    dstIp: Option<string>,
    dscps: Option<seq<int>>)

  /** `create_raw_traffic`: never rejects. */
  function BuildRaw(name: string, srcMac: Option<string>, dstMac: Option<string>,
                    srcIp: Option<string>, dstIp: Option<string>, dscps: Option<seq<int>>,
                    pktSize: int, pktCount: Option<int>, ratePercent: int, startDelaySecs: int): (item: RawItem)
    ensures item.name == name && item.rate == PercentLineRate(ratePercent) && item.frameSize == pktSize
    ensures item.control == RawControl(pktCount)
    ensures item.control.FixedFrameCount? <==> pktCount.Some? && pktCount.value > 0
    ensures item.control.FixedFrameCount? ==> Some(item.control.frames) == pktCount
    ensures item.startDelayNs == StartDelayAsWritten(startDelaySecs)
    ensures item.srcMac == srcMac && item.dstMac == dstMac && item.srcIp == srcIp && item.dstIp == dstIp
    ensures item.dscps.Some? <==> dscps.Some? && |dscps.value| > 0
    ensures item.dscps.Some? ==> item.dscps == dscps
  {
    RawItem(name, PercentLineRate(ratePercent), pktSize, RawControl(pktCount),
            StartDelayAsWritten(startDelaySecs), srcMac, dstMac, srcIp, dstIp, NonEmpty(dscps))
  }

  /** The value written into the two ECN bits for ECN-capable traffic
      (binary `10`). */
  const EcnCapableBits: int := 2

  /** What `create_ipv4_traffic` writes. */
  datatype Ipv4Item = Ipv4Item(
    name: string,
    rate: FrameRate,
    frameSize: int,
    control: Control,
    startDelayNs: Option<int>,
    dscps: Option<seq<int>>,
    ecnBits: Option<int>,
    pfcQueues: Option<seq<int>>)

  /** `create_ipv4_traffic`. Its bound check runs after the traffic item has
      been added and given its rate and frame size. */
  function BuildIpv4(name: string, pktSize: int, pktCount: Option<int>, duration: DurationArg,
                     ratePercent: int, startDelaySecs: int, dscps: Option<seq<int>>,
                     losslessPrios: Option<seq<int>>, ecnCapable: bool): (r: Built<Ipv4Item>)
    ensures r.Created? <==> BoundsAllowed(pktCount, duration)
    ensures r.Rejected? ==> r.itemAdded && r.reason in {CountAndDuration, InvalidDuration}
    ensures r.Created? ==>
      && r.item.name == name && r.item.rate == PercentLineRate(ratePercent) && r.item.frameSize == pktSize
      && Accepted(r.item.control) == TransmissionControl(pktCount, duration)
      && r.item.startDelayNs == StartDelayAsWritten(startDelaySecs)
      && (r.item.dscps.Some? <==> dscps.Some? && |dscps.value| > 0)
      && (r.item.dscps.Some? ==> r.item.dscps == dscps)
      && r.item.ecnBits == (if ecnCapable then Some(EcnCapableBits) else None)
      && (r.item.pfcQueues.Some? <==> losslessPrios.Some? && |losslessPrios.value| > 0)
      && (r.item.pfcQueues.Some? ==> r.item.pfcQueues == losslessPrios)
  {
    match TransmissionControl(pktCount, duration)
    case Refused(reason) => Rejected(reason, true)
    case Accepted(control) =>
      Created(Ipv4Item(name, PercentLineRate(ratePercent), pktSize, control, StartDelayAsWritten(startDelaySecs),
                       NonEmpty(dscps), if ecnCapable then Some(EcnCapableBits) else None,
                       NonEmpty(losslessPrios)))
  }

  /** Pause frames are minimum-size Ethernet frames. */
  const PauseFrameSize: int := 64

  /** What `create_pause_traffic` writes. */
  datatype PauseItem = PauseItem(
    name: string,
    rate: FrameRate,
    frameSize: int,
    control: Control,
    startDelayNs: Option<int>,
    fields: Fields)

  /** Every listed priority is one of the eight PFC priorities (an absent
      list is not checked). */
  predicate PrioritiesInRange(prios: Option<seq<int>>) {
    prios.None? || forall i :: 0 <= i < |prios.value| ==> ValidPriority(prios.value[i])
  }

  /** `create_pause_traffic`. The priority check comes first, before
      anything is added to the session; the bound checks come after the
      item is added; a PFC frame without a priority list fails when its
      fields are written. */
  function BuildPause(name: string, pktPerSec: real, pktCount: Option<int>, duration: DurationArg,
                      startDelaySecs: int, globalPause: bool, prios: Option<seq<int>>): (r: Built<PauseItem>)
    ensures r == Rejected(PriorityOutOfRange, false) <==> !PrioritiesInRange(prios)
    ensures r.Rejected? && r.reason != PriorityOutOfRange ==> r.itemAdded
    ensures r.Created? <==> PrioritiesInRange(prios) && BoundsAllowed(pktCount, duration) && (globalPause || prios.Some?)
    ensures r.Created? ==>
      && r.item.name == name && r.item.rate == FramesPerSecond(pktPerSec) && r.item.frameSize == PauseFrameSize
      && Accepted(r.item.control) == TransmissionControl(pktCount, duration)
      && r.item.startDelayNs == StartDelayAsWritten(startDelaySecs)
      && (globalPause ==> r.item.fields == GlobalPauseFields())
      && (!globalPause ==>
            && r.item.fields == PfcFields(prios.value)
            && r.item.fields.opcode == PfcOpcode
            && r.item.fields.enableVector == EnableVector(prios.value)
            && |r.item.fields.queuePause| == PriorityCount
            && forall i :: 0 <= i < PriorityCount ==>
                 r.item.fields.queuePause[i] == (if i in prios.value then MaxPauseQuanta else 0))
  {
    if !PrioritiesInRange(prios) then Rejected(PriorityOutOfRange, false)
    else
      match TransmissionControl(pktCount, duration)
      case Refused(reason) => Rejected(reason, true)
      case Accepted(control) =>
        if globalPause then
          Created(PauseItem(name, FramesPerSecond(pktPerSec), PauseFrameSize, control,
                            StartDelayAsWritten(startDelaySecs), GlobalPauseFields()))
        else if prios.None? then Rejected(PriorityListMissing, true)
        else
          Created(PauseItem(name, FramesPerSecond(pktPerSec), PauseFrameSize, control,
                            StartDelayAsWritten(startDelaySecs), PfcFields(prios.value)))
  }

  /** The IPv4 and pause builders apply one bound rule: once the priorities
      pass, they accept and reject the same packet-count/duration pairs,
      for the same reason, and choose the same transmission mode. */
  lemma BoundRuleShared(name: string, pktSize: int, pktPerSec: real, pktCount: Option<int>,
                        duration: DurationArg, startDelaySecs: int, prios: seq<int>)
    requires PrioritiesInRange(Some(prios))
    ensures var v4 := BuildIpv4(name, pktSize, pktCount, duration, 100, startDelaySecs, None, None, false);
            var pause := BuildPause(name, pktPerSec, pktCount, duration, startDelaySecs, false, Some(prios));
            && (v4.Created? <==> pause.Created?)
            && (v4.Rejected? ==> v4.reason == pause.reason)
            && (v4.Created? ==> v4.item.control == pause.item.control)
  {
  }

  /** A global pause frame does not depend on the priority list: any two
      lists that pass the range check give the same item. */
  lemma GlobalPauseIgnoresPriorities(name: string, pktPerSec: real, pktCount: Option<int>,
                                     duration: DurationArg, startDelaySecs: int,
                                     a: Option<seq<int>>, b: Option<seq<int>>)
    requires PrioritiesInRange(a) && PrioritiesInRange(b)
    ensures BuildPause(name, pktPerSec, pktCount, duration, startDelaySecs, true, a)
         == BuildPause(name, pktPerSec, pktCount, duration, startDelaySecs, true, b)
  {
  }

  /** In a PFC pause item built from distinct priorities, class `i` is
      enabled in the vector exactly when it is paused for the maximum time,
      and the vector fits in eight bits. */
  lemma PfcItemConsistent(name: string, pktPerSec: real, pktCount: Option<int>, duration: DurationArg,
                          startDelaySecs: int, prios: seq<int>, i: nat)
    requires DistinctPriorities(prios)
    requires i < PriorityCount
    requires BuildPause(name, pktPerSec, pktCount, duration, startDelaySecs, false, Some(prios)).Created?
    ensures var f := BuildPause(name, pktPerSec, pktCount, duration, startDelaySecs, false, Some(prios)).item.fields;
            && f.enableVector < 256
            && (Bits.BitSet(f.enableVector, i) <==> f.queuePause[i] == MaxPauseQuanta)
  {
    PfcFieldsConsistent(prios, i);
  }
}
